=== FILE: README.md ===
# SmartLPD fines and plate detection, modelled in Dafny

SmartLPD handles traffic fines keyed by licence plate. It has three parts:

- **A Spring backend.**
  - `FineController` offers the REST endpoints `/api/fines`: create, check by plate, list, pay, update status and statistics.
  - `FineService` and `FineRepository` keep the fines table.
  - `AuthService` registers and logs in users.
  - `LicensePlateService` asks a Python recognition service for a plate and falls back to a random sample plate.
- **A Flask recognition service** (`ml-service/app.py`). It cleans and validates OCR text and tries a fixed cascade of OCR modes.
- **Four browser scripts**:
  - `auth.js`: a mock login, registration through the backend, and logout;
  - `detect.js`: image upload or camera capture, then detection;
  - `check-fine.js`: a citizen checks and pays the fines of a plate;
  - `manage-fines.js`: an authority lists, searches, issues, updates and exports fines.

How each part is modelled:

- **The fines table** is a sequence of `FineRow` values held by `FineLedger.FineService`.
  - The repository's derived queries are functions on that sequence. Each returns the matching rows, newest violation first.
  - `FineModel.Fine` is the entity class with its constructor and setters.
- **The backend controllers and services** are classes whose methods change the table. Each method is proved against the query functions.
- **The recognition service** is a set of pure functions (`Clean`, `ValidateLicensePlate`, `Cascade`) and the method `DetectLicensePlateReal`. The method's loop over OCR modes is proved equal to the cascade function.
- **Each browser page** is a class whose fields are the page's state (form fields, lists, notices, the target location) plus a `Session.SessionStore` standing for `localStorage`.
  - Every reply the page awaits (`fetch`, `response.json()`) is a parameter of type `HttpReply`, so one call models one complete run of an async handler.
  - Each handler's new state is stated as a function of the old state and the replies.

The environment enters as parameters:

- password hashing, token generation and `parseFloat`;
- date and number formatting;
- the random choices (an index `pick` and a number `u` in [0, 1));
- the clock (`now`);
- the OCR readings of an image.

Source paths below are relative to the repository root.

## Model

| member | source | states |
|---|---|---|
| FineModel.Fine.constructor | smartlpd-backend-v2/smartlpd/src/main/java/com/smartlpd/model/Fine.java:53-66 | a new fine is UNPAID, has no id, is due 30 days after the violation, and names its issuer's username or "System" when there is no issuer |
| FineModel.Fine.Load | smartlpd-backend-v2/smartlpd/src/main/java/com/smartlpd/model/Fine.java:51 | an entity loaded from a stored row carries that row's id and exactly that row's fields |
| FineModel.Fine.SetIssuedBy | smartlpd-backend-v2/smartlpd/src/main/java/com/smartlpd/model/Fine.java:94-99 | setting an issuer also sets the issuer name; setting none keeps the previous name |
| FineModel.Fine.SetStatus | smartlpd-backend-v2/smartlpd/src/main/java/com/smartlpd/model/Fine.java:91 | the status becomes the given one |
| FineModel.Fine.SetId | smartlpd-backend-v2/smartlpd/src/main/java/com/smartlpd/model/Fine.java:70 | the entity gets the given id |
| FineRepository.InsertByDateDesc | smartlpd-backend-v2/smartlpd/src/main/java/com/smartlpd/repository/FineRepository.java:15 | inserting a fine into an ordered list adds exactly that fine (multiset) |
| FineRepository.InsertKeepsSorted | smartlpd-backend-v2/smartlpd/src/main/java/com/smartlpd/repository/FineRepository.java:15 | insertion keeps a list ordered by violation date, newest first |
| FineRepository.SortByDateDesc | smartlpd-backend-v2/smartlpd/src/main/java/com/smartlpd/repository/FineRepository.java:15-22 | `ORDER BY violationDate DESC`: the result is ordered newest first and is a permutation of its input |
| FineRepository.SelectionMembers | smartlpd-backend-v2/smartlpd/src/main/java/com/smartlpd/repository/FineRepository.java:15-22 | an ordered selection holds exactly the table rows that satisfy the query, as many as the table has |
| FineRepository.FindByLicensePlate | smartlpd-backend-v2/smartlpd/src/main/java/com/smartlpd/repository/FineRepository.java:15 | the result is the plate's fines, newest first: a fine is in it iff it is in the table with that plate |
| FineRepository.FindByLicensePlateAndStatus | smartlpd-backend-v2/smartlpd/src/main/java/com/smartlpd/repository/FineRepository.java:16 | the result is the table rows with that plate and that status, newest first, and no others |
| FineRepository.FindByStatus | smartlpd-backend-v2/smartlpd/src/main/java/com/smartlpd/repository/FineRepository.java:17 | the result is the table rows with that status, newest first, and no others |
| FineRepository.SearchByPlate | smartlpd-backend-v2/smartlpd/src/main/java/com/smartlpd/repository/FineRepository.java:21-22 | a row is found iff its lower-cased plate contains the lower-cased term; newest first |
| FineRepository.EmptySearchFindsAll | smartlpd-backend-v2/smartlpd/src/main/java/com/smartlpd/repository/FineRepository.java:21-22 | an empty search term finds every fine of the table |
| FineRepository.CountByStatus | smartlpd-backend-v2/smartlpd/src/main/java/com/smartlpd/repository/FineRepository.java:25 | the count equals the size of the status query and never exceeds the table size |
| FineRepository.IndexOfIdFrom | smartlpd-backend-v2/smartlpd/src/main/java/com/smartlpd/repository/FineRepository.java:18 | the position found holds the id; when none is found no later row has it |
| FineRepository.IndexOfId | smartlpd-backend-v2/smartlpd/src/main/java/com/smartlpd/repository/FineRepository.java:18 | the position found holds the id, and nothing is found iff no row has it |
| FineRepository.FindById | smartlpd-backend-v2/smartlpd/src/main/java/com/smartlpd/repository/FineRepository.java:18 | the row found is in the table with that id, and nothing is found iff no row has it |
| FineRepository.FindByIdAndLicensePlate | smartlpd-backend-v2/smartlpd/src/main/java/com/smartlpd/repository/FineRepository.java:18 | a fine is found iff the fine with that id exists and carries that plate |
| FineLedger.Issuer | smartlpd-backend-v2/smartlpd/src/main/java/com/smartlpd/service/FineService.java:27-30 | no issuer for a missing name or "system"; otherwise the registered user with that name, and none iff there is no such user |
| FineLedger.FineService.constructor | smartlpd-backend-v2/smartlpd/src/main/java/com/smartlpd/service/FineService.java:16-22 | the service starts with an empty table and the first id 1 |
| FineLedger.FineService.CreateFine | smartlpd-backend-v2/smartlpd/src/main/java/com/smartlpd/service/FineService.java:24-34 | a fine is saved iff plate and type are present; it is appended with the next id, unpaid, so the unpaid count grows by one; otherwise nothing changes |
| FineLedger.FineService.GetFinesByLicensePlate | smartlpd-backend-v2/smartlpd/src/main/java/com/smartlpd/service/FineService.java:36-38 | returns the plate query over the table |
| FineLedger.FineService.GetUnpaidFinesByLicensePlate | smartlpd-backend-v2/smartlpd/src/main/java/com/smartlpd/service/FineService.java:40-42 | returns the plate's UNPAID fines |
| FineLedger.FineService.GetAllFines | smartlpd-backend-v2/smartlpd/src/main/java/com/smartlpd/service/FineService.java:44-46 | returns the whole table |
| FineLedger.FineService.SearchFines | smartlpd-backend-v2/smartlpd/src/main/java/com/smartlpd/service/FineService.java:69-71 | returns the case-insensitive partial-plate search |
| FineLedger.FineService.UpdateFineStatus | smartlpd-backend-v2/smartlpd/src/main/java/com/smartlpd/service/FineService.java:48-56 | an unknown id fails with "Fine not found" and changes nothing; otherwise only that fine's status changes, and the updated fine is returned |
| FineLedger.FineService.PayFine | smartlpd-backend-v2/smartlpd/src/main/java/com/smartlpd/service/FineService.java:58-67 | paying succeeds iff the id exists with that plate; then only that fine's status becomes PAID, otherwise nothing changes |
| FineLedger.FineService.PayFineTwice | smartlpd-backend-v2/smartlpd/src/main/java/com/smartlpd/service/FineService.java:58-67 | paying the same fine twice gives the same answer both times and the same table as paying once (idempotence) |
| FineLedger.UniqueIdFound | smartlpd-backend-v2/smartlpd/src/main/java/com/smartlpd/service/FineService.java:58-67 | with distinct ids, the lookup by id finds exactly the row holding it |
| FineApi.FineStats | smartlpd-backend-v2/smartlpd/src/main/java/com/smartlpd/controller/FineController.java:140-161 | the statistics are the table size and the UNPAID and PAID counts; paid plus unpaid never exceeds the total |
| FineApi.ParseStatus | smartlpd-backend-v2/smartlpd/src/main/java/com/smartlpd/controller/FineController.java:124 | `FineStatus.valueOf`: succeeds exactly on a status's own name and returns that status; a missing name fails with "Name is null" |
| FineApi.ParseStatusName | smartlpd-backend-v2/smartlpd/src/main/java/com/smartlpd/controller/FineController.java:124 | every status name parses back to its status |
| FineApi.ParseStatusIsCaseSensitive | smartlpd-backend-v2/smartlpd/src/main/java/com/smartlpd/controller/FineController.java:124 | "paid" and "Unpaid" are refused |
| FineApi.FineController.constructor | smartlpd-backend-v2/smartlpd/src/main/java/com/smartlpd/controller/FineController.java:18-22 | the controller uses the given service |
| FineApi.FineController.CreateFine | smartlpd-backend-v2/smartlpd/src/main/java/com/smartlpd/controller/FineController.java:24-49 | 200 iff the amount parses and plate and type are present; then the new fine (issuer "System", dated now) is appended and returned; otherwise 400 with the error and the table unchanged |
| FineApi.FineController.CheckFines | smartlpd-backend-v2/smartlpd/src/main/java/com/smartlpd/controller/FineController.java:52-76 | a blank plate is refused with 400; otherwise 200 with the plate's fines |
| FineApi.FineController.GetAllFines | smartlpd-backend-v2/smartlpd/src/main/java/com/smartlpd/controller/FineController.java:79-91 | 200 with every fine |
| FineApi.FineController.PayFine | smartlpd-backend-v2/smartlpd/src/main/java/com/smartlpd/controller/FineController.java:94-117 | success iff a plate is given and the id exists with that plate; then that fine is PAID; otherwise 400 "Fine not found or already paid" and the table unchanged |
| FineApi.FineController.UpdateFineStatus | smartlpd-backend-v2/smartlpd/src/main/java/com/smartlpd/controller/FineController.java:120-137 | success iff the status name parses and the id exists; then only that fine's status changes; otherwise 500 with the parse or lookup error and the table unchanged |
| FineApi.FineController.GetFineStats | smartlpd-backend-v2/smartlpd/src/main/java/com/smartlpd/controller/FineController.java:140-161 | 200 with the statistics of the table |
| UserModel.FindByUsername | smartlpd-backend-v2/smartlpd/src/main/java/com/smartlpd/service/AuthService.java:34 | a user is found iff some user has that username, and it is one of them |
| UserModel.FindByEmail | smartlpd-backend-v2/smartlpd/src/main/java/com/smartlpd/service/AuthService.java:39 | a user is found iff some user has that e-mail, and it is one of them |
| UserModel.KeysIdentifyUser | smartlpd-backend-v2/smartlpd/src/main/java/com/smartlpd/service/AuthService.java:34-41 | in a table with unique usernames and e-mails, two users sharing a username, or sharing an e-mail, are the same user |
| Accounts.IsValidAuthorityEmail | smartlpd-backend-v2/smartlpd/src/main/java/com/smartlpd/service/AuthService.java:28-30 | an address is a government address iff its last ten characters, lower-cased, are "@gov.ac.in" (a string is never null here, so Java's null case does not arise) |
| Accounts.AuthorityEmailIgnoresCase | smartlpd-backend-v2/smartlpd/src/main/java/com/smartlpd/service/AuthService.java:28-30 | the `@gov.ac.in` check gives the same answer for an address and its lower-case form |
| Accounts.RegistrationError | smartlpd-backend-v2/smartlpd/src/main/java/com/smartlpd/service/AuthService.java:33-46 | registration is refused iff the username or e-mail is taken, or an authority's address is outside `@gov.ac.in`; the checks run in that order: a taken username gives "Username already exists", otherwise a taken e-mail "Email already exists", otherwise an authority outside the domain the government-address message |
| Accounts.Authenticate | smartlpd-backend-v2/smartlpd/src/main/java/com/smartlpd/service/AuthService.java:68-86 | a user is returned only if the identifier is its username or e-mail and the password matches; a username match takes precedence over an e-mail match; an unknown identifier fails. In a table with unique usernames and e-mails, the user whose username is the identifier is returned iff the password matches its hash, and when no username matches, the same holds for the user whose e-mail is the identifier |
| Accounts.RegisteredUserAuthenticates | smartlpd-backend-v2/smartlpd/src/main/java/com/smartlpd/service/AuthService.java:32-92 | a user just registered under a fresh username logs in with its password |
| Accounts.FindAppended | smartlpd-backend-v2/smartlpd/src/main/java/com/smartlpd/service/AuthService.java:70 | a user appended under a fresh username is the one found by that username |
| Accounts.AuthService.constructor | smartlpd-backend-v2/smartlpd/src/main/java/com/smartlpd/service/AuthService.java:16-26 | the service starts with no users and the given encoder and token generator |
| Accounts.AuthService.Register | smartlpd-backend-v2/smartlpd/src/main/java/com/smartlpd/service/AuthService.java:32-66 | success iff there is no registration error; then the user is stored with the encoded password and role (default CITIZEN) and a token is returned; otherwise the users are unchanged and the error message is returned |
| Accounts.AuthService.Login | smartlpd-backend-v2/smartlpd/src/main/java/com/smartlpd/service/AuthService.java:68-92 | success iff authentication finds a user (for a unique table: the user with that username, or else with that e-mail, whose password matches); the reply then carries that user's token, name and role; otherwise the single "invalid username/email or password" reply |
| PlateDetection.MockConfidence | smartlpd-backend-v2/smartlpd/src/main/java/com/smartlpd/service/LicensePlateService.java:58 | a mock confidence lies in [0.85, 1.0) |
| PlateDetection.ExpectedDetection | smartlpd-backend-v2/smartlpd/src/main/java/com/smartlpd/service/LicensePlateService.java:18-60 | detection always succeeds. The ML message appears iff the ML reply is accepted; then its plate is used (none for a null plate), and its confidence when numeric, else 0.85. Otherwise the drawn sample plate is used, with confidence 0.85 + u * 0.15. The "unavailable" message appears iff the accepted-looking reply has a non-text plate; no reply or an unsuccessful one gives the "no results" message |
| PlateDetection.DetectionResponse.constructor | smartlpd-backend-v2/smartlpd/src/main/java/com/smartlpd/dto/DetectionResponse.java:3-7 | a new response has no plate, confidence 0, no success and no message |
| PlateDetection.DetectionResponse.SetLicensePlateNumber | smartlpd-backend-v2/smartlpd/src/main/java/com/smartlpd/dto/DetectionResponse.java:11 | only the plate changes |
| PlateDetection.DetectionResponse.SetConfidence | smartlpd-backend-v2/smartlpd/src/main/java/com/smartlpd/dto/DetectionResponse.java:14 | only the confidence changes |
| PlateDetection.DetectionResponse.SetSuccess | smartlpd-backend-v2/smartlpd/src/main/java/com/smartlpd/dto/DetectionResponse.java:17 | only the success flag changes |
| PlateDetection.DetectionResponse.SetMessage | smartlpd-backend-v2/smartlpd/src/main/java/com/smartlpd/dto/DetectionResponse.java:20 | only the message changes |
| PlateDetection.FallbackToMockDetection | smartlpd-backend-v2/smartlpd/src/main/java/com/smartlpd/service/LicensePlateService.java:53-60 | the response gets the chosen sample plate, a mock confidence and success; its message is kept |
| PlateDetection.DetectLicensePlate | smartlpd-backend-v2/smartlpd/src/main/java/com/smartlpd/service/LicensePlateService.java:18-51 | the response built step by step equals the expected detection for the ML reply |
| PlateRecognition.Clean | ml-service/app.py:114 | the cleaned text is the upper-cased input with every character other than A-Z and 0-9 removed, in order; it is no longer than the input |
| PlateRecognition.CleanFixesPlateText | ml-service/app.py:114 | text already made of upper-case letters and digits is left as it is |
| PlateRecognition.CleanIdempotent | ml-service/app.py:114 | cleaning twice is cleaning once |
| PlateRecognition.CleanUppercases | ml-service/app.py:114 | a lower-case letter of the input survives as its upper-case form |
| PlateRecognition.PlateConfidence | ml-service/app.py:128-133 | the confidence is 0.9 for a 4-character plate and the 0.95 cap for every longer one |
| PlateRecognition.ValidateLicensePlate | ml-service/app.py:108-135 | empty text is rejected; text is accepted iff its cleaned form has 4 to 10 characters with a letter and a digit; the plate is the cleaned text; confidence 0 iff rejected |
| PlateRecognition.ValidationIdempotent | ml-service/app.py:108-135 | validating an accepted plate again accepts it unchanged with the same confidence |
| PlateRecognition.AltCascade | ml-service/app.py:186-212 | the alternative OCR modes succeed iff some remaining mode validates, scaled by 0.7; otherwise the "NOT_DETECTED" failure |
| PlateRecognition.Cascade | ml-service/app.py:150-212 | detection succeeds iff some step validates, with a valid plate and confidence at most 0.95; a valid contour reading always wins with factor 1.0; failing that, a valid full-image reading wins with factor 0.8 and method "full_image_ocr"; otherwise "NOT_DETECTED" |
| PlateRecognition.CascadeOrder | ml-service/app.py:186-200 | when the contour and full-image readings fail, the first alternative mode that validates decides the result |
| PlateRecognition.AltSkipsFailures | ml-service/app.py:188-200 | failing alternative modes are skipped without effect |
| PlateRecognition.DetectLicensePlateReal | ml-service/app.py:137-226 | an undecodable image gives "DETECTION_ERROR" with its message; otherwise the loop over the modes returns exactly the cascade's result |
| PlateRecognition.DetectPlate | ml-service/app.py:228-252 | an unreadable body is a 500 API error; a missing or empty image a 400; a non-empty image always gives a 200 recognition result: the decode failure result when decoding fails, otherwise the cascade's result on the decoded image |
| Session.LoginGuard | smartplateRecognization2/js/check-fine.js:8-12 | a page lets the visitor stay iff a non-empty token is stored, and sends them to login.html otherwise |
| Session.SessionStore.constructor | smartplateRecognization2/js/auth.js:42-59 | the store starts with the given items |
| Session.SessionStore.GetItem | smartplateRecognization2/js/auth.js:47-59 | an item is returned iff its key is stored, and it is the stored value |
| Session.SessionStore.SetItem | smartplateRecognization2/js/auth.js:79-81 | exactly one key is set |
| Session.SessionStore.RemoveItem | smartplateRecognization2/js/auth.js:155-157 | exactly one key is removed |
| Session.SessionStore.ClearLogin | smartplateRecognization2/js/auth.js:155-157 | exactly the token, username and role keys are removed |
| AuthPage.RedirectFor | smartplateRecognization2/js/auth.js:88-95 | authorities go to manage-fines.html and everyone else to check-fine.html |
| AuthPage.MockRole | smartplateRecognization2/js/auth.js:65-70 | exactly the three mock accounts have a role, and only testcitizen is a citizen |
| AuthPage.LoginAsWritten | smartplateRecognization2/js/auth.js:62-101 | as written, login succeeds iff the password is right and the lower-cased name is a mock account or an inherited object key; an inherited key logs in with no role |
| AuthPage.LoginCorrected | smartplateRecognization2/js/auth.js:62-101 | login succeeds iff the lower-cased name is a mock account and the password is "password123"; it then carries that account's role and the token "mock-token-" plus the time |
| AuthPage.PrototypeNameLogsIn | smartplateRecognization2/js/auth.js:72-74 | the name "constructor" with the mock password logs in as written, with role "undefined" and the citizen page; the corrected login refuses it |
| AuthPage.IsLoggedIn | smartplateRecognization2/js/auth.js:42-44 | the page counts as logged in iff a token is stored under "authToken" (`getItem` is not null) |
| AuthPage.EmptyFieldRefused | smartplateRecognization2/js/auth.js:201-204 | an empty user name or password is refused by the login as written and by the corrected one alike |
| AuthPage.SubmitLoginForm | smartplateRecognization2/js/auth.js:195-216 | with a field left empty the form shows "Please fill in all fields", calls no `login` and leaves the store unchanged; otherwise it is `login`: success iff the corrected check accepts, the store written only on success |
| AuthPage.Login | smartplateRecognization2/js/auth.js:62-107 | success iff the corrected check accepts; then token, username and role are stored and the role's page is the target; on failure the store is unchanged and "Invalid credentials" is returned |
| AuthPage.Register | smartplateRecognization2/js/auth.js:110-151 | a failed request gives "Registration failed: " plus its message; only a successful reply writes the session (a null field stored as "null") and picks the role's page |
| AuthPage.Logout | smartplateRecognization2/js/auth.js:154-159 | exactly the login keys are removed, every other item is kept, the visitor is logged out and sent to index.html |
| AuthPage.SignupCheck | smartplateRecognization2/js/auth.js:229-246 | a password mismatch is reported first; the form is submitted iff the passwords match and every field is filled, with the form's own values |
| ClientApi.StatusClass | smartplateRecognization2/js/check-fine.js:150-151 | a card is "status-paid" iff PAID, "status-unpaid" iff UNPAID, and neutral otherwise |
| ClientApi.StatusClassOfRow | smartplateRecognization2/js/check-fine.js:150-151 | stored fines map PAID, UNPAID, CANCELLED to the paid, unpaid and neutral classes |
| CheckFinePage.CheckPlate | smartplateRecognization2/js/check-fine.js:70-81 | an empty plate and a length outside 3..15 are refused; otherwise the plate sent is the trimmed upper-case input, with no space at either end and no lower-case letter |
| CheckFinePage.Card | smartplateRecognization2/js/check-fine.js:147-175 | a card offers "Pay Now" iff the fine is UNPAID, and the button is meant to pay that fine under the plate checked (a plate holding a quote breaks the handler; see Left out) |
| CheckFinePage.PayNowOnlyUnpaid | smartplateRecognization2/js/check-fine.js:166-172 | a stored fine's card offers payment iff the fine is UNPAID |
| CheckFinePage.Display | smartplateRecognization2/js/check-fine.js:126-182 | a missing or empty list shows the "no fines" notice; otherwise one card per fine in order |
| CheckFinePage.CheckMessage | smartplateRecognization2/js/check-fine.js:98-119 | a successful reply shows "Fines retrieved successfully"; a network error or unreadable body is reported with its error text; a 500 as "Server error: " plus the backend's message, or "Internal server error" when it has none; any other non-2xx status as "HTTP error! status: N"; a 2xx refusal as "Error: " plus its message; all failures but the last carry the "Failed to check fines: " prefix |
| CheckFinePage.AfterCheck | smartplateRecognization2/js/check-fine.js:63-124 | a refused input only changes the message; otherwise the button is re-enabled, the message follows the reply, and the results change iff the reply succeeded |
| CheckFinePage.CheckFinePage.constructor | smartplateRecognization2/js/check-fine.js:4-36 | the page redirects to login.html iff no non-empty token is stored, and starts with no results, an enabled button and no message |
| CheckFinePage.CheckFinePage.DisplayFines | smartplateRecognization2/js/check-fine.js:126-182 | the rendered results are the display of the list |
| CheckFinePage.CheckFinePage.CheckFines | smartplateRecognization2/js/check-fine.js:63-124 | a request is sent iff the input passes the checks, for the normalised plate; the new page state is the one `AfterCheck` describes |
| CheckFinePage.PayFailure | smartplateRecognization2/js/check-fine.js:198-212 | a 2xx reply with a readable body shows "Error: " plus the backend's message; a network error, any non-2xx status or an unreadable body shows "Failed to pay fine. Please try again." |
| CheckFinePage.BackendRefusalShowsGenericMessage | smartlpd-backend-v2/smartlpd/src/main/java/com/smartlpd/controller/FineController.java:104-107 | the backend's 400 refusal of a payment is not a success on the page and shows the generic failure message, not the backend's text |
| CheckFinePage.CheckFinePage.PayFine | smartplateRecognization2/js/check-fine.js:184-214 | a payment request for that fine id and plate is sent iff the user confirms; without confirmation nothing changes; the list is checked again iff the payment succeeded; a 2xx reply with success false shows "Error: " plus its message; every other failure, including the backend's 400 refusal, shows the generic message |
| Csv.DoubleQuotes | smartplateRecognization2/js/manage-fines.js:94 | text without a double quote is written as it is |
| Csv.RecordRoundTrip | smartplateRecognization2/js/manage-fines.js:86-117 | a record of escaped fields and comma- and quote-free bare fields reads back as exactly the fields' texts |
| Csv.FieldsAsWritten | smartplateRecognization2/js/manage-fines.js:94-96 | an exported line has the eight header columns |
| Csv.Fields | smartplateRecognization2/js/manage-fines.js:94-96 | the escaped line has the same eight texts as the line as written |
| Csv.LineReadsBack | smartplateRecognization2/js/manage-fines.js:94-96 | every escaped line reads back as the fine's plate, amount, type, description, dates, status and issuer |
| Csv.QuoteInPlateBreaksLine | smartplateRecognization2/js/manage-fines.js:96 | as written, the line of a fine with plate `A"1` is not a well-formed record; the escaped line reads back |
| ManageFinesPage.SearchFilter | smartplateRecognization2/js/manage-fines.js:65-83 | an empty term shows every fine; otherwise the fines shown keep their order, are exactly those matching the term, and number as many as the matching fines in the list (each as often as it occurs) |
| ManageFinesPage.MatchesOwnStatus | smartplateRecognization2/js/manage-fines.js:75-80 | searching for a fine's own status finds it |
| ManageFinesPage.AdminCardOf | smartplateRecognization2/js/manage-fines.js:259-289 | "Mark Paid" is disabled iff the fine is PAID; "Cancel" is disabled unless it is UNPAID |
| ManageFinesPage.ButtonsOfRow | smartplateRecognization2/js/manage-fines.js:280-283 | for a stored fine, "Mark Paid" is enabled iff it is not PAID and "Cancel" iff it is UNPAID; both buttons send names the backend parses |
| ManageFinesPage.ListOf | smartplateRecognization2/js/manage-fines.js:244-293 | an empty list shows the notice; otherwise one admin card per fine in order |
| ManageFinesPage.StatsShown | smartplateRecognization2/js/manage-fines.js:119-156 | the counters fall back to zeros whenever the statistics reply is unusable |
| ManageFinesPage.StatsOfTable | smartplateRecognization2/js/manage-fines.js:119-156 | the counters shown for the backend's reply are the table size and its unpaid and paid counts |
| ManageFinesPage.LoadNotice | smartplateRecognization2/js/manage-fines.js:214-242 | a notice is shown iff the list failed to load |
| ManageFinesPage.IssueCheck | smartplateRecognization2/js/manage-fines.js:158-167 | a fine is sent iff plate and type are filled and the amount is a positive number; it carries the normalised plate and trimmed description |
| ManageFinesPage.ManageFinesPage.constructor | smartplateRecognization2/js/manage-fines.js:7-44 | the page starts with empty fields, no list, zero counters and an enabled button |
| ManageFinesPage.ManageFinesPage.DisplayAllFines | smartplateRecognization2/js/manage-fines.js:244-293 | the rendered list is the card list of the fines |
| ManageFinesPage.ManageFinesPage.HandleSearch | smartplateRecognization2/js/manage-fines.js:65-83 | the rendered list is the cards of the fines matching the search field |
| ManageFinesPage.ManageFinesPage.ExportFines | smartplateRecognization2/js/manage-fines.js:86-117 | the export is the header followed by one line per loaded fine, in order; each line is the corrected `Csv.Line`, with every quoted field escaped (the line as written is `Csv.LineAsWritten`, see Findings) |
| ManageFinesPage.ManageFinesPage.LoadFineStats | smartplateRecognization2/js/manage-fines.js:119-156 | the counters become those shown for the reply |
| ManageFinesPage.ManageFinesPage.LoadAllFines | smartplateRecognization2/js/manage-fines.js:214-242 | a loaded list replaces the fines and the rendered list; a failed load keeps them and shows its notice |
| ManageFinesPage.ManageFinesPage.IssueFine | smartplateRecognization2/js/manage-fines.js:158-212 | an incomplete form only shows the notice; a successful write clears the form and reloads statistics and list; a failed write keeps the form and shows the failure |
| ManageFinesPage.ManageFinesPage.UpdateFineStatus | smartplateRecognization2/js/manage-fines.js:295-323 | a status update for that fine id and status is sent iff the user confirms; without confirmation nothing changes; a successful write reloads statistics and list; a failed one shows the failure and keeps the list |
| ManageFinesPage.ManageFinesPage.Init | smartplateRecognization2/js/manage-fines.js:7-32 | no token sends to login.html and a non-authority to index.html, with nothing loaded; the redirects leave fines, list, counters, notice and plate field as they were. An authority gets the statistics, and the list when it loads (otherwise the old list and the load notice); a plate handed over by detection is pre-filled and removed from the session |
| DetectPage.SecondCommaField | smartplateRecognization2/js/detect.js:247 | `split(',')[1]` is missing iff there is no comma; otherwise it is the comma-free text right after the first comma, up to the next comma or the end |
| DetectPage.DataUrlPayload | smartplateRecognization2/js/detect.js:247 | for a data URL `header,payload`, the payload sent is exactly the base64 part |
| DetectPage.DetectPage.constructor | smartplateRecognization2/js/detect.js:1-69 | the page redirects to login.html iff no non-empty token is stored, and starts with placeholders and no image, the camera off, its controls hidden and the preview shown |
| DetectPage.DetectPage.CloseCamera | smartplateRecognization2/js/detect.js:198-205 | the camera is off, its controls hidden, the preview shown |
| DetectPage.DetectPage.HandleFileSelect | smartplateRecognization2/js/detect.js:135-155 | no file changes nothing; a file closes the camera; only an `image/` file becomes the current image |
| DetectPage.DetectPage.OpenCamera | smartplateRecognization2/js/detect.js:158-180 | the camera opens iff it is supported and allowed; otherwise nothing changes |
| DetectPage.DetectPage.CaptureImage | smartplateRecognization2/js/detect.js:182-196 | the captured frame becomes the current image and the camera is closed |
| DetectPage.DetectPage.ResetPreview | smartplateRecognization2/js/detect.js:208-223 | image, plate and results are cleared, so nothing can be copied or downloaded |
| DetectPage.DetectPage.FallbackToMockDetection | smartplateRecognization2/js/detect.js:310-325 | the chosen sample plate is shown and remembered; the issue button appears for authorities |
| DetectPage.DetectPage.DetectLicensePlate | smartplateRecognization2/js/detect.js:226-307 | no request and no change without an image, or without a token (then only the move to login.html); an expired session logs out and leaves the plate texts and issue button as they were; otherwise the detected plate, the drawn sample plate (in preview, text and variable) or the "not found" texts, and the issue button only for authorities; the button is enabled again after every request |
| DetectPage.DetectPage.CopyText | smartplateRecognization2/js/detect.js:328-337 | text is copied iff a result is shown, and it is that result |
| DetectPage.DetectPage.DownloadResult | smartplateRecognization2/js/detect.js:339-353 | a file is saved iff a result is shown, holding that result |
| DetectPage.DetectPage.RedirectToIssueFine | smartplateRecognization2/js/detect.js:355-363 | with a detected plate, it is handed to the session and the page goes to manage-fines.html; otherwise nothing changes |
| DetectPage.SamplePlatesAreResults | smartplateRecognization2/js/detect.js:310-325 | every sample plate counts as a result that can be copied and downloaded |

The logout functions of `check-fine.js` (216-221), `detect.js` (43-48) and `manage-fines.js` (325-330) do the same as the one in `auth.js`. `AuthPage.Logout` models all four.

## Left out

- **Floating point.** Amounts and confidences are exact reals.
  - Python's `round(x, 2)` is not modelled, and neither are JavaScript's `toFixed` and `Math.round` in the status texts.
  - The confidence bounds are stated on the unrounded values.
- **Case mapping.** `toUpperCase`, `toLowerCase`, `upper()` and SQL `LOWER` are modelled on ASCII letters only.
- **Search patterns.** SQL `LIKE` wildcards (`%`, `_`) inside a search term are read as literal characters. Database collation is not modelled.
- **Unmodelled columns.** Column lengths, the `createdAt`/`updatedAt` timestamps and `processing_time` are not modelled.
- **Storage order.** The table order for `findAll` is the insertion order.
- **Image processing.** OCR, contour detection and base64 or image decoding are not modelled.
  - Each image is the OCR texts its steps would read (`Readings`), or a decoding error.
  - The functions `preprocess_image`, `detect_license_plate_contours` and `extract_text_with_ocr` are replaced by those texts.
- **The recognition service's other routes.** The `/health` route and the service's start-up are not modelled.
- **MLService.** The HTTP call is not modelled. Its outcome enters as the reply the detection service reads, including the catch-all failure reply.
- **Hashing and tokens.** `PasswordEncoder` and the JWT utility are function parameters of `Accounts.AuthService`.
- **Dates.**
  - Dates are whole seconds.
  - `LocalDateTime.now()` and `Date.now()` are parameters.
  - `toLocaleDateString` is the `dateText` parameter.
- **JSON values.** Values of unexpected JSON types are not modelled. The one exception is a non-text plate from the recognition service, which the backend turns into the "unavailable" reply.
- **Async interleaving.** Every request completes before the next step, in program order. This includes the reloads that `issueFine` and `updateFineStatus` start without awaiting them. Concurrent clicks and out-of-order replies are not modelled.
- **Rendering.** The texts that `check-fine.js` passes to `showStatus` are modelled as the `status` field of `CheckFinePage.CheckFinePage`. The texts of the `alert` calls in `manage-fines.js` are modelled as the `notice` field of `ManageFinesPage.ManageFinesPage`. Not modelled:
  - DOM rendering, HTML strings, the spinner texts, and how messages are displayed and timed out;
  - the `showAuthStatus` texts of `auth.js`, apart from the two form checks' messages;
  - the alerts and status banners of `detect.js` (the banners hold a rounded confidence);
  - the alerts shown on page load before a redirect, and the export's banner;
  - the login and signup buttons' disabled state while a request runs.
- **Navigation.** `updateNavigation`, `debugAuth` and `checkBackendConnection` are not modelled.
- **Browser APIs.**
  - The `FileReader` is modelled by its result (the data URL) and the camera by two booleans.
  - The export's file and `Blob` handling, `encodeURIComponent` in the download link and the clipboard are not modelled.
  - `parseFloat` is the `parseNumber` parameter of `ManageFinesPage.ManageFinesPage`.
  - Number-to-text conversion is the `amountText` parameter of the export.
- **Backend exceptions.** Database errors are not modelled. In `FineApi.FineController.CreateFine` the only error path is a bad amount or a missing required column. That column is NOT NULL in the table, so the service refuses it.
- **Unit plumbing.** `FineModel.Fine.Row` converts an entity to its stored row and states nothing of its own.
- **Other controllers.** `AuthController` and `DetectionController` forward requests to the services modelled here. They are not part of this model.
- **PlateDetection.DetectLicensePlate:** the exception path covers only a non-text plate from the recognition service. Other runtime exceptions inside the branch cannot arise in the model.
- CheckFinePage.Card: the "Pay Now" button is modelled as the call it is meant to make, `payFine(id, plate)`. The button's `onclick` text at smartplateRecognization2/js/check-fine.js:168 puts the plate between single quotes without escaping it. A plate holding `'` or `"` (for example `AB'C`) passes the input checks, but then the handler text does not parse and nothing is paid. HTML and script parsing are not modelled, so the model does not capture that failure.

## Findings

| source | as written | input that shows it | evidently intended | confidence | as-written member | corrected member |
|---|---|---|---|---|---|---|
| smartplateRecognization2/js/auth.js:72-74 | the mock account is looked up with `mockUsers[username.toLowerCase()]` on a plain object, so inherited members such as `constructor` and `__proto__` count as accounts | username `constructor`, password `password123`: login succeeds, stores role `undefined` and redirects to check-fine.html | only the three listed accounts can log in | high (not executed) | AuthPage.LoginAsWritten, AuthPage.PrototypeNameLogsIn | AuthPage.LoginCorrected |
| smartplateRecognization2/js/manage-fines.js:94-96 | only the description is escaped. The plate, type, dates, status and issuer are put between quotes with any double quote inside left as it is | a fine with plate `A"1` (or a violation type holding a `"`) is exported as a line that is not a well-formed RFC 4180 record | every quoted field escaped like the description | high (not executed) | Csv.FieldsAsWritten, Csv.LineAsWritten, Csv.QuoteInPlateBreaksLine | Csv.Fields, Csv.LineReadsBack, ManageFinesPage.ManageFinesPage.ExportFines (exports the corrected lines) |

=== FILE: auth_page.dfy ===
/** The login and sign-up page script: a mock login against a fixed account table, registration
    through the backend, logout, and the two forms' input checks. The clock reading `now` is a
    parameter. */
module AuthPage {

  import opened Common
  import opened Strings
  import opened Session

  const MockPassword: string := "password123"
  const TokenPrefix: string := "mock-token-"
  const InvalidCredentials: string := "Invalid credentials"
  const FillFieldsMessage: string := "Please fill in all fields"

  const AuthorityHome: string := "manage-fines.html"
  const CitizenHome: string := "check-fine.html"
  const IndexPage: string := "index.html"
  const LoginPage: string := "login.html"

  /** The page a role lands on after login or registration. */
  function RedirectFor(role: Option<string>): (page: string)
    ensures page == AuthorityHome <==> role == Some("AUTHORITY")
    ensures page == AuthorityHome || page == CitizenHome
  {
    if role == Some("AUTHORITY") then AuthorityHome else CitizenHome
  }

  /** The mock account table, by lower-cased username: the role of each of its own entries. */
  function MockRole(key: string): (r: Option<string>)
    ensures r.Some? <==> key == "testauthority" || key == "testcitizen" || key == "vedantss"
    ensures r == Some("CITIZEN") <==> key == "testcitizen"
    ensures r.Some? ==> r.value == "AUTHORITY" || r.value == "CITIZEN"
  {
    if key == "testauthority" || key == "vedantss" then Some("AUTHORITY")
    else if key == "testcitizen" then Some("CITIZEN")
    else None
  }

  /** What indexing a plain JavaScript object literal yields: one of its own entries, a truthy
      member inherited from `Object.prototype` (which has no `role`), or `undefined`. */
  datatype Lookup = OwnEntry(role: string) | InheritedMember | Missing

  /** The property names of `Object.prototype` that are entirely lower case, and so can be the
      result of `toLowerCase()`. */
  const LowerCasePrototypeKeys: set<string> := {"constructor", "__proto__"}

  /** `mockUsers[key]` as the script evaluates it. */
  function MockLookupAsWritten(key: string): Lookup
  {
    if MockRole(key).Some? then OwnEntry(MockRole(key).value)
    else if key in LowerCasePrototypeKeys then InheritedMember
    else Missing
  }

  /** An own-property lookup of the same table. */
  function MockLookup(key: string): Lookup
  {
    if MockRole(key).Some? then OwnEntry(MockRole(key).value) else Missing
  }

  /** The decision of `login`: the token it issues and the role it records (absent when the
      entry has no `role`), or a refusal. */
  datatype LoginOutcome = LoggedIn(token: string, role: Option<string>) | Refused

  function LoginWith(entry: Lookup, password: string, now: nat): LoginOutcome
  {
    if !entry.Missing? && password == MockPassword then
      LoggedIn(TokenPrefix + DecimalString(now), if entry.OwnEntry? then Some(entry.role) else None)
    else Refused
  }

  /** `login` as written: any username whose lower-case form names an inherited member is let in. */
  function LoginAsWritten(username: string, password: string, now: nat): (r: LoginOutcome)
    ensures r.LoggedIn? <==>
              (MockRole(ToLower(username)).Some? || ToLower(username) in LowerCasePrototypeKeys) &&
              password == MockPassword
    ensures r.LoggedIn? && ToLower(username) in LowerCasePrototypeKeys ==> r.role.None?
  {
    LoginWith(MockLookupAsWritten(ToLower(username)), password, now)
  }

  /** `login` with an own-property lookup: exactly the three table accounts with the shared
      password get in, each with its table role. */
  function LoginCorrected(username: string, password: string, now: nat): (r: LoginOutcome)
    ensures r.LoggedIn? <==> MockRole(ToLower(username)).Some? && password == MockPassword
    ensures r.LoggedIn? ==> r.role == MockRole(ToLower(username)) &&
                            r.token == TokenPrefix + DecimalString(now)
  {
    LoginWith(MockLookup(ToLower(username)), password, now)
  }

  /** The user name "constructor" with the shared password logs in under the script as written,
      with no role: `userRole` is stored as the text "undefined" and the user lands on the
      citizen page. The corrected lookup refuses it. */
  lemma PrototypeNameLogsIn()
    ensures LoginAsWritten("constructor", MockPassword, 0) == LoggedIn("mock-token-0", None)
    ensures RoleText(None) == "undefined" && RedirectFor(None) == CitizenHome
    ensures LoginCorrected("constructor", MockPassword, 0) == Refused
  {
    assert ToLower("constructor") == "constructor";
    assert DecimalString(0) == "0";
  }

  /** What `setItem` stores for a role that may be `undefined`. */
  function RoleText(role: Option<string>): string
  {
    if role.Some? then role.value else "undefined"
  }

  /** The object `login` resolves to. */
  datatype LoginReply = LoginReply(success: bool, token: Option<string>, username: Option<string>,
                                   role: Option<string>, message: Option<string>, redirect: Option<string>)

  /** The page is logged in exactly when a token is stored. */
  predicate IsLoggedIn(store: SessionStore)
    reads store
    ensures IsLoggedIn(store) <==> store.GetItem(AuthTokenKey).Some?
  {
    AuthTokenKey in store.items
  }

  /** `login`, with the own-property lookup: a refusal leaves the store as it was; an accepted
      login stores the token, the user name exactly as typed, and the table role. */
  method Login(store: SessionStore, username: string, password: string, now: nat) returns (reply: LoginReply)
    modifies store
    ensures reply.success <==> MockRole(ToLower(username)).Some? && password == MockPassword
    ensures !reply.success ==>
              store.items == old(store.items) &&
              reply == LoginReply(false, None, None, None, Some(InvalidCredentials), None)
    ensures reply.success ==>
              var role := MockRole(ToLower(username)).value;
              var token := TokenPrefix + DecimalString(now);
              && store.items == old(store.items)[AuthTokenKey := token][UsernameKey := username][UserRoleKey := role]
              && reply == LoginReply(true, Some(token), Some(username), Some(role), None, Some(RedirectFor(Some(role))))
              && IsLoggedIn(store)
  {
    var outcome := LoginCorrected(username, password, now);
    if outcome.Refused? {
      return LoginReply(false, None, None, None, Some(InvalidCredentials), None);
    }
    store.SetItem(AuthTokenKey, outcome.token);
    store.SetItem(UsernameKey, username);
    store.SetItem(UserRoleKey, RoleText(outcome.role));
    reply := LoginReply(true, Some(outcome.token), Some(username), outcome.role, None, Some(RedirectFor(outcome.role)));
  }

  /** An empty user name or password is refused whichever lookup `login` uses. */
  lemma EmptyFieldRefused(username: string, password: string, now: nat)
    requires username == "" || password == ""
    ensures LoginAsWritten(username, password, now) == Refused
    ensures LoginCorrected(username, password, now) == Refused
  {
  }

  /** The login form's submit handler: with a field left empty it only shows the fill-in message
      and `login` is not called; otherwise it is `login` on the two fields. */
  method SubmitLoginForm(store: SessionStore, username: string, password: string, now: nat)
    returns (formMessage: Option<string>, reply: Option<LoginReply>)
    modifies store
    ensures formMessage.Some? <==> username == "" || password == ""
    ensures formMessage.Some? ==> formMessage.value == FillFieldsMessage
    ensures reply.None? <==> formMessage.Some?
    ensures reply.None? ==> store.items == old(store.items)
    ensures reply.Some? ==> (reply.value.success <==> MockRole(ToLower(username)).Some? && password == MockPassword)
    ensures reply.Some? && !reply.value.success ==> store.items == old(store.items)
    ensures reply.Some? && reply.value.success ==>
              store.items == old(store.items)[AuthTokenKey := TokenPrefix + DecimalString(now)]
                                             [UsernameKey := username]
                                             [UserRoleKey := MockRole(ToLower(username)).value]
  {
    if username == "" || password == "" {
      return Some(FillFieldsMessage), None;
    }
    var r := Login(store, username, password, now);
    formMessage, reply := None, Some(r);
  }

  /** The backend's answer to a registration. */
  datatype RegisterJson = RegisterJson(success: bool, token: Option<string>, username: Option<string>,
                                       role: Option<string>, message: Option<string>)

  /** `register`: `reply` is the parsed answer, or the message of the network or parse error.
      Only a successful answer writes the session, and then all three keys. */
  method Register(store: SessionStore, reply: Result<RegisterJson>) returns (result: RegisterJson, redirect: Option<string>)
    modifies store
    ensures reply.Err? ==>
              result == RegisterJson(false, None, None, None, Some("Registration failed: " + reply.message)) &&
              redirect.None? && store.items == old(store.items)
    ensures reply.Ok? ==> result == reply.value
    ensures reply.Ok? && !reply.value.success ==> redirect.None? && store.items == old(store.items)
    ensures reply.Ok? && reply.value.success ==>
              && store.items == old(store.items)[AuthTokenKey := StoredText(reply.value.token)]
                                                [UsernameKey := StoredText(reply.value.username)]
                                                [UserRoleKey := StoredText(reply.value.role)]
              && redirect == Some(RedirectFor(reply.value.role))
              && IsLoggedIn(store)
  {
    if reply.Err? {
      return RegisterJson(false, None, None, None, Some("Registration failed: " + reply.message)), None;
    }
    var data := reply.value;
    if data.success {
      store.SetItem(AuthTokenKey, StoredText(data.token));
      store.SetItem(UsernameKey, StoredText(data.username));
      store.SetItem(UserRoleKey, StoredText(data.role));
      redirect := Some(RedirectFor(data.role));
    } else {
      redirect := None;
    }
    result := data;
  }

  /** `logout`: removes the three login keys, keeps every other key, and goes to the index page. */
  method Logout(store: SessionStore) returns (target: string)
    modifies store
    ensures store.items == old(store.items) - LoginKeys
    ensures forall k :: k !in LoginKeys && k in old(store.items) ==> k in store.items && store.items[k] == old(store.items)[k]
    ensures !IsLoggedIn(store) && target == IndexPage
  {
    store.ClearLogin();
    target := IndexPage;
  }

  datatype SignupForm = SignupForm(username: string, email: string, password: string, confirmPassword: string,
                                   fullName: string, role: string)

  datatype UserData = UserData(username: string, email: string, password: string, fullName: string, role: string)

  datatype SignupDecision = PasswordMismatch | MissingField | Submit(data: UserData)

  /** The sign-up form: a password mismatch is reported first, then any empty field; only a
      form passing both is sent. */
  function SignupCheck(form: SignupForm): (r: SignupDecision)
    ensures r == PasswordMismatch <==> form.password != form.confirmPassword
    ensures r.Submit? <==>
              form.password == form.confirmPassword &&
              form.username != "" && form.email != "" && form.password != "" && form.fullName != "" && form.role != ""
    ensures r.Submit? ==>
              r.data == UserData(form.username, form.email, form.password, form.fullName, form.role)
  {
    if form.password != form.confirmPassword then PasswordMismatch
    else
      var data := UserData(form.username, form.email, form.password, form.fullName, form.role);
      if data.username == "" || data.email == "" || data.password == "" || data.fullName == "" || data.role == "" then
        MissingField
      else Submit(data)
  }
}

=== FILE: auth_service.dfy ===
/** The authentication service: registration into the user table and login by username or email.
    Password hashing and token signing are functions the service is given. */
module Accounts {

  import opened Common
  import opened Strings
  import opened UserModel

  datatype RegisterRequest = RegisterRequest(username: string, email: string, password: string,
                                             fullName: string, role: Option<UserRole>)

  datatype LoginRequest = LoginRequest(username: string, password: string)

  datatype AuthResponse = AuthResponse(token: Option<string>, message: string, success: bool,
                                       username: Option<string>, role: Option<string>)

  const AuthorityDomain: string := "@gov.ac.in"
  const BadCredentials: string := "Invalid username/email or password"
  const UsernameTaken: string := "Username already exists"
  const EmailTaken: string := "Email already exists"
  const AuthorityEmailRequired: string := "Government authorities must use @gov.ac.in email addresses"

  function Failure(message: string): AuthResponse
  {
    AuthResponse(None, message, false, None, None)
  }

  /** `isValidAuthorityEmail`: the address, lower-cased, ends with "@gov.ac.in". */
  predicate IsValidAuthorityEmail(email: string)
    ensures IsValidAuthorityEmail(email) <==>
              |AuthorityDomain| <= |email| && ToLower(email[|email| - |AuthorityDomain|..]) == AuthorityDomain
  {
    assert |AuthorityDomain| <= |email| ==>
             ToLower(email)[|email| - |AuthorityDomain|..] == ToLower(email[|email| - |AuthorityDomain|..]);
    EndsWith(ToLower(email), AuthorityDomain)
  }

  /** The domain check ignores letter case. */
  lemma AuthorityEmailIgnoresCase(email: string)
    ensures IsValidAuthorityEmail(email) <==> IsValidAuthorityEmail(ToLower(email))
  {
    assert ToLower(ToLower(email)) == ToLower(email);
  }

  /** The first reason `register` refuses a request, if any: a taken username, then a taken
      email, then an authority without a government address. */
  function RegistrationError(users: seq<User>, request: RegisterRequest): (r: Option<string>)
    ensures r.None? <==>
              && (forall u :: u in users ==> u.username != request.username && u.email != request.email)
              && (request.role == Some(AUTHORITY) ==> IsValidAuthorityEmail(request.email))
    ensures (exists u :: u in users && u.username == request.username) ==> r == Some(UsernameTaken)
    ensures && (forall u :: u in users ==> u.username != request.username)
            && (exists u :: u in users && u.email == request.email)
            ==> r == Some(EmailTaken)
    ensures && (forall u :: u in users ==> u.username != request.username && u.email != request.email)
            && request.role == Some(AUTHORITY) && !IsValidAuthorityEmail(request.email)
            ==> r == Some(AuthorityEmailRequired)
  {
    if FindByUsername(users, request.username).Some? then Some(UsernameTaken)
    else if FindByEmail(users, request.email).Some? then Some(EmailTaken)
    else if request.role == Some(AUTHORITY) && !IsValidAuthorityEmail(request.email) then
      Some(AuthorityEmailRequired)
    else None
  }

  /** The account `login` accepts: found by username first, by email only when no username
      matches, and only if the password matches the stored hash. */
  function Authenticate(users: seq<User>, identifier: string, password: string,
                        matches: (string, string) -> bool): (r: Option<User>)
    ensures r.Some? ==> r.value in users && matches(password, r.value.password)
    ensures r.Some? ==> r.value.username == identifier || r.value.email == identifier
    ensures (exists u :: u in users && u.username == identifier) ==>
              r.Some? ==> r.value.username == identifier
    ensures (forall u :: u in users ==> u.username != identifier && u.email != identifier) ==> r.None?
    ensures UniqueAccounts(users) ==>
              forall u :: u in users && u.username == identifier ==>
                (r == Some(u) <==> matches(password, u.password))
    ensures UniqueAccounts(users) && (forall v :: v in users ==> v.username != identifier) ==>
              forall u :: u in users && u.email == identifier ==>
                (r == Some(u) <==> matches(password, u.password))
  {
    KeysIdentifyUser(users);
    var found := if FindByUsername(users, identifier).Some? then FindByUsername(users, identifier)
                 else FindByEmail(users, identifier);
    if found.Some? && matches(password, found.value.password) then found else None
  }

  /** A freshly registered account is found by its username and accepted with its own
      password, provided the hash check accepts a password against its own hash. */
  lemma {:induction false} RegisteredUserAuthenticates(users: seq<User>, u: User, password: string,
                                                      matches: (string, string) -> bool)
    requires forall v :: v in users ==> v.username != u.username
    requires matches(password, u.password)
    ensures Authenticate(users + [u], u.username, password, matches) == Some(u)
  {
    FindAppended(users, u);
  }

  lemma {:induction false} FindAppended(users: seq<User>, u: User)
    requires forall v :: v in users ==> v.username != u.username
    ensures FindByUsername(users + [u], u.username) == Some(u)
    decreases |users|
  {
    if users != [] {
      assert (users + [u])[1..] == users[1..] + [u];
      assert users[0] in users;
      FindAppended(users[1..], u);
    }
  }

  class AuthService {
    /** The `users` table, in insertion order. */
    var users: seq<User>
    var nextId: nat
    /** `passwordEncoder.encode` and `passwordEncoder.matches`. */
    const encode: string -> string
    const matches: (string, string) -> bool
    /** `jwtUtil.generateToken(username, role)`. */
    const generateToken: (string, string) -> string

    /** Usernames and emails are unique, and every authority account has a government address. */
    ghost predicate Valid()
      reads this
    {
      && UniqueAccounts(users)
      && (forall i :: 0 <= i < |users| && users[i].role == AUTHORITY ==> IsValidAuthorityEmail(users[i].email))
      && (forall i :: 0 <= i < |users| ==> users[i].id < nextId)
    }

    constructor (encode: string -> string, matches: (string, string) -> bool,
                 generateToken: (string, string) -> string)
      ensures Valid() && users == []
      ensures this.encode == encode && this.matches == matches && this.generateToken == generateToken
    {
      users := [];
      nextId := 1;
      this.encode := encode;
      this.matches := matches;
      this.generateToken := generateToken;
    }

    /** `register`: a refused request changes nothing; an accepted one stores exactly one user,
        with the encoded password and the role CITIZEN when none is asked for. */
    method Register(request: RegisterRequest) returns (resp: AuthResponse)
      requires Valid()
      modifies this
      ensures Valid()
      ensures resp.success <==> RegistrationError(old(users), request).None?
      ensures !resp.success ==>
                users == old(users) && nextId == old(nextId) &&
                resp == Failure(RegistrationError(old(users), request).value)
      ensures resp.success ==>
                var role := if request.role.Some? then request.role.value else CITIZEN;
                && users == old(users) + [User(old(nextId), request.username, request.email,
                                               encode(request.password), request.fullName, role)]
                && resp == AuthResponse(Some(generateToken(request.username, RoleName(role))),
                                        "User registered successfully", true,
                                        Some(request.username), Some(RoleName(role)))
    {
      var error := RegistrationError(users, request);
      if error.Some? {
        return Failure(error.value);
      }
      var role := if request.role.Some? then request.role.value else CITIZEN;
      var user := User(nextId, request.username, request.email, encode(request.password), request.fullName, role);
      users := users + [user];
      nextId := nextId + 1;
      resp := AuthResponse(Some(generateToken(user.username, RoleName(user.role))),
                           "User registered successfully", true, Some(user.username), Some(RoleName(user.role)));
    }

    /** `login`: both failures give the same message, so a caller cannot tell an unknown account
        from a wrong password. */
    function Login(request: LoginRequest): (r: AuthResponse)
      reads this
      ensures r.success <==> Authenticate(users, request.username, request.password, matches).Some?
      ensures !r.success ==> r == Failure(BadCredentials)
      ensures r.success ==>
                var u := Authenticate(users, request.username, request.password, matches).value;
                r == AuthResponse(Some(generateToken(u.username, RoleName(u.role))), "Login successful", true,
                                  Some(u.username), Some(RoleName(u.role)))
    {
      var found := if FindByUsername(users, request.username).Some? then FindByUsername(users, request.username)
                   else FindByEmail(users, request.username);
      if found.None? || !matches(request.password, found.value.password) then Failure(BadCredentials)
      else
        var u := found.value;
        AuthResponse(Some(generateToken(u.username, RoleName(u.role))), "Login successful", true,
                     Some(u.username), Some(RoleName(u.role)))
    }
  }
}

=== FILE: check_fine_page.dfy ===
/** The "check fines" page: a plate typed by the user is normalised and checked, the backend is
    asked for the plate's fines, and each fine is shown as a card with a "Pay Now" button when it
    is unpaid. */
module CheckFinePage {

  import opened Common
  import opened Strings
  import opened Session
  import opened FineModel
  import opened ClientApi
  import FineApi

  const MinInputLength: nat := 3
  const MaxInputLength: nat := 15

  const EmptyPlateMessage: string := "Please enter a license plate number"
  const BadLengthMessage: string := "Please enter a valid license plate number (3-15 characters)"
  const RetrievedMessage: string := "Fines retrieved successfully"
  const CheckFailedPrefix: string := "Failed to check fines: "
  const ServerErrorPrefix: string := "Server error: "
  const InternalServerError: string := "Internal server error"
  const HttpErrorPrefix: string := "HTTP error! status: "
  const PaidMessage: string := "Fine paid successfully!"
  const PayFailedMessage: string := "Failed to pay fine. Please try again."

  datatype PlateCheck = EmptyPlate | BadLength | Proceed(plate: string)

  /** The input checks before any request: empty first, then the length bounds. The plate sent
      is 3 to 15 characters, with no white space at either end and no lower-case letter. */
  function CheckPlate(input: string): (r: PlateCheck)
    ensures r == EmptyPlate <==> NormalizePlate(input) == ""
    ensures r.Proceed? <==> MinInputLength <= |NormalizePlate(input)| <= MaxInputLength
    ensures r.Proceed? ==> r.plate == NormalizePlate(input)
    ensures r.Proceed? ==> !IsJsSpace(r.plate[0]) && !IsJsSpace(r.plate[|r.plate| - 1])
    ensures r.Proceed? ==> forall i :: 0 <= i < |r.plate| ==> !IsAsciiLower(r.plate[i])
  {
    var plate := NormalizePlate(input);
    if plate == "" then EmptyPlate
    else if |plate| < MinInputLength || |plate| > MaxInputLength then BadLength
    else
      JsTrimSpec(input);
      Proceed(plate)
  }

  /** What the check endpoint answers. */
  datatype CheckJson = CheckJson(success: bool, message: string, fines: Option<seq<FineJson>>)

  /** The call a "Pay Now" button makes, and the request `payFine` sends for it: the id in the
      path and the plate in the body. */
  datatype PayAction = PayAction(fineId: int, plate: string)

  /** One rendered fine. Dates stay timestamps: their locale formatting is not modelled. */
  datatype FineCard = FineCard(statusClass: string, violationType: string, amount: real,
                               description: string, violationDate: Timestamp,
                               dueDate: Option<Timestamp>, status: string, issuedBy: string,
                               payNow: Option<PayAction>)

  /** The card of one fine, found under the plate the user checked. */
  function Card(f: FineJson, plate: string): (c: FineCard)
    ensures c.payNow.Some? <==> f.status == "UNPAID"
    ensures c.payNow.Some? ==> c.payNow.value == PayAction(f.id, plate)
    ensures c.statusClass == StatusClass(f.status)
  {
    FineCard(StatusClass(f.status), f.violationType, f.amount, DescriptionText(f), f.violationDate,
             f.dueDate, f.status, IssuerText(f),
             if f.status == "UNPAID" then Some(PayAction(f.id, plate)) else None)
  }

  /** A stored fine offers "Pay Now" exactly when it is unpaid, although the backend would also
      accept paying it in any other status. */
  lemma PayNowOnlyUnpaid(row: FineRow, plate: string)
    ensures Card(ToJson(row), plate).payNow.Some? <==> row.status == UNPAID
  {
  }

  /** The results panel: the "no fines" notice for a plate, or its cards. */
  datatype Results = NoFinesFor(plate: string) | FinesFor(plate: string, cards: seq<FineCard>)

  /** What `displayFines` shows for a (possibly missing) list. */
  function Display(fines: Option<seq<FineJson>>, plate: string): (r: Results)
    ensures r.plate == plate
    ensures r.NoFinesFor? <==> fines.None? || fines.value == []
    ensures r.FinesFor? ==> |r.cards| == |fines.value| &&
                            forall i :: 0 <= i < |r.cards| ==> r.cards[i] == Card(fines.value[i], plate)
  {
    if fines.None? || fines.value == [] then NoFinesFor(plate)
    else FinesFor(plate, seq(|fines.value|, i requires 0 <= i < |fines.value| => Card(fines.value[i], plate)))
  }

  /** The backend answered 2xx with a JSON body whose `success` is true. */
  predicate Retrieved(reply: HttpReply<CheckJson>)
  {
    reply.Answered? && IsOk(reply.status) && reply.body.Parsed? && reply.body.value.success
  }

  /** The status line after a check request. */
  function CheckMessage(reply: HttpReply<CheckJson>): (m: string)
    ensures Retrieved(reply) ==> m == RetrievedMessage
    ensures !Retrieved(reply) ==> StartsWith(m, CheckFailedPrefix) || StartsWith(m, ErrorPrefix)
    ensures reply.NetworkError? ==> m == CheckFailedPrefix + reply.error
    ensures reply.Answered? && reply.status == 500 && reply.body.Parsed? && reply.body.value.message != "" ==>
              m == CheckFailedPrefix + ServerErrorPrefix + reply.body.value.message
    ensures reply.Answered? && reply.status == 500 && reply.body.Parsed? && reply.body.value.message == "" ==>
              m == CheckFailedPrefix + ServerErrorPrefix + InternalServerError
    ensures reply.Answered? && !IsOk(reply.status) && reply.status != 500 ==>
              m == CheckFailedPrefix + HttpErrorPrefix + DecimalString(reply.status)
    ensures reply.Answered? && (IsOk(reply.status) || reply.status == 500) && reply.body.Unparsable? ==>
              m == CheckFailedPrefix + reply.body.error
    ensures reply.Answered? && IsOk(reply.status) && reply.body.Parsed? && !reply.body.value.success ==>
              m == ErrorPrefix + reply.body.value.message
  {
    match reply
    case NetworkError(e) => CheckFailedPrefix + e
    case Answered(status, body) =>
      if !IsOk(status) then
        if status == 500 then
          if body.Unparsable? then CheckFailedPrefix + body.error
          else
            CheckFailedPrefix + ServerErrorPrefix +
              (if body.value.message != "" then body.value.message else InternalServerError)
        else CheckFailedPrefix + HttpErrorPrefix + DecimalString(status)
      else if body.Unparsable? then CheckFailedPrefix + body.error
      else if body.value.success then RetrievedMessage
      else ErrorPrefix + body.value.message
  }

  /** The page state `checkFines` changes. */
  datatype CheckView = CheckView(results: Option<Results>, checkEnabled: bool, status: string)

  /** `checkFines` as a function of the input, the state before and the backend's reply to the
      request it sends (if it sends one). */
  function AfterCheck(input: string, before: CheckView, reply: HttpReply<CheckJson>): (after: CheckView)
    ensures CheckPlate(input) == EmptyPlate ==> after == before.(status := EmptyPlateMessage)
    ensures CheckPlate(input) == BadLength ==> after == before.(status := BadLengthMessage)
    ensures CheckPlate(input).Proceed? ==> after.checkEnabled && after.status == CheckMessage(reply)
    ensures CheckPlate(input).Proceed? && Retrieved(reply) ==>
              after.results == Some(Display(reply.body.value.fines, CheckPlate(input).plate))
    ensures !(CheckPlate(input).Proceed? && Retrieved(reply)) ==> after.results == before.results
  {
    var check := CheckPlate(input);
    if check == EmptyPlate then before.(status := EmptyPlateMessage)
    else if check == BadLength then before.(status := BadLengthMessage)
    else
      CheckView(if Retrieved(reply) then Some(Display(reply.body.value.fines, check.plate)) else before.results,
                true, CheckMessage(reply))
  }

  /** The outcome of a payment request as the page reads it. */
  predicate PaySucceeded(reply: HttpReply<ApiReply>)
  {
    reply.Answered? && IsOk(reply.status) && reply.body.Parsed? && reply.body.value.success
  }

  /** The status line after a payment that did not succeed. Any non-2xx reply, the backend's own
      refusal included, is thrown before its body is read and shows the generic message; only a
      2xx reply with `success` false shows the backend's message. */
  function PayFailure(reply: HttpReply<ApiReply>): (m: string)
    ensures reply.Answered? && IsOk(reply.status) && reply.body.Parsed? ==> m == ErrorPrefix + reply.body.value.message
    ensures reply.NetworkError? || !IsOk(reply.status) || reply.body.Unparsable? ==> m == PayFailedMessage
  {
    if reply.Answered? && IsOk(reply.status) && reply.body.Parsed? then ErrorPrefix + reply.body.value.message
    else PayFailedMessage
  }

  /** The backend's refusal of a payment (status 400) reaches the page as the generic message,
      never as the backend's own text. */
  lemma BackendRefusalShowsGenericMessage(resp: FineApi.Response, body: Json<ApiReply>)
    requires resp.status == FineApi.BadRequest400 && !resp.success
    ensures !PaySucceeded(Answered(resp.status as nat, body))
    ensures PayFailure(Answered(resp.status as nat, body)) == PayFailedMessage
  {
  }

  class CheckFinePage {
    var plateInput: string
    var checkEnabled: bool
    var results: Option<Results>
    var status: string
    /** The page the script sends the browser to, if any. */
    var location: Option<string>

    function View(): CheckView
      reads this
    {
      CheckView(results, checkEnabled, status)
    }

    /** The page as loaded; without a login it goes to the login page. */
    constructor (session: SessionStore, plateInput: string)
      ensures this.plateInput == plateInput && View() == CheckView(None, true, "")
      ensures location == LoginGuard(session.items)
    {
      this.plateInput := plateInput;
      location := LoginGuard(session.items);
      checkEnabled := true;
      results := None;
      status := "";
    }

    /** `displayFines`: one card per fine, in the order received. */
    method DisplayFines(fines: Option<seq<FineJson>>, plate: string)
      modifies this`results
      ensures results == Some(Display(fines, plate))
    {
      if fines.None? || fines.value == [] {
        results := Some(NoFinesFor(plate));
        return;
      }
      var list := fines.value;
      var cards: seq<FineCard> := [];
      var i := 0;
      while i < |list|
        invariant 0 <= i <= |list|
        invariant |cards| == i
        invariant forall k :: 0 <= k < i ==> cards[k] == Card(list[k], plate)
      {
        cards := cards + [Card(list[i], plate)];
        i := i + 1;
      }
      assert cards == Display(fines, plate).cards;
      results := Some(FinesFor(plate, cards));
    }

    /** `checkFines`: returns the plate it asks about, or nothing when the input is refused. The
        button is enabled again on every path that sent a request. */
    method CheckFines(reply: HttpReply<CheckJson>) returns (sent: Option<string>)
      modifies this`results, this`checkEnabled, this`status
      ensures sent.Some? <==> CheckPlate(plateInput).Proceed?
      ensures sent.Some? ==> sent.value == CheckPlate(plateInput).plate
      ensures View() == AfterCheck(plateInput, old(View()), reply)
    {
      var check := CheckPlate(plateInput);
      if check == EmptyPlate {
        status := EmptyPlateMessage;
        return None;
      }
      if check == BadLength {
        status := BadLengthMessage;
        return None;
      }
      var plate := check.plate;
      sent := Some(plate);
      checkEnabled := false;
      if Retrieved(reply) {
        DisplayFines(reply.body.value.fines, plate);
      }
      status := CheckMessage(reply);
      checkEnabled := true;
    }

    /** `payFine`: nothing is sent unless the user confirms; the list is checked again only after
        a successful payment. */
    method PayFine(fineId: int, plate: string, confirmed: bool, reply: HttpReply<ApiReply>,
                   recheck: HttpReply<CheckJson>) returns (sent: Option<PayAction>, refreshed: bool)
      modifies this`results, this`checkEnabled, this`status
      ensures sent.Some? <==> confirmed
      ensures sent.Some? ==> sent.value == PayAction(fineId, plate)
      ensures !confirmed ==> !refreshed && View() == old(View())
      ensures refreshed <==> confirmed && PaySucceeded(reply)
      ensures confirmed && !refreshed ==>
                View() == old(View()).(status := PayFailure(reply))
      ensures refreshed ==> View() == AfterCheck(plateInput, old(View()).(status := PaidMessage), recheck)
    {
      if !confirmed {
        return None, false;
      }
      sent := Some(PayAction(fineId, plate));
      if PaySucceeded(reply) {
        status := PaidMessage;
        var _ := CheckFines(recheck);
        refreshed := true;
      } else {
        status := PayFailure(reply);
        refreshed := false;
      }
    }
  }
}

=== FILE: client_fines.dfy ===
/** What the browser pages receive from the backend: HTTP replies with JSON bodies, and fines as
    JSON objects. */
module ClientApi {

  import opened Common
  import opened Strings
  import opened FineModel

  /** The prefix of the message a page shows for a refusal carrying the backend's message. */
  const ErrorPrefix: string := "Error: "

  /** A plate typed into a form, as the pages send it: `value.trim().toUpperCase()`. */
  function NormalizePlate(input: string): string
  {
    ToUpper(JsTrim(input))
  }

  /** A body read with `response.json()`: the parsed value, or the parse error's message. */
  datatype Json<T> = Parsed(value: T) | Unparsable(error: string)

  /** What `fetch` resolves or rejects to. */
  datatype HttpReply<T> = NetworkError(error: string) | Answered(status: nat, body: Json<T>)

  /** `response.ok`. */
  predicate IsOk(status: nat)
  {
    200 <= status <= 299
  }

  /** The `{success, message}` reply of the backend's write endpoints. */
  datatype ApiReply = ApiReply(success: bool, message: string)

  /** A fine as the pages see it: the status as its name, the dates as the backend sent them. */
  datatype FineJson = FineJson(id: int, licensePlateNumber: string, amount: real, violationType: string,
                               description: Option<string>, violationDate: Timestamp,
                               dueDate: Option<Timestamp>, status: string,
                               issuedByUsername: Option<string>)

  /** The JSON form of a stored fine. */
  function ToJson(row: FineRow): FineJson
  {
    FineJson(row.id, row.licensePlateNumber, row.amount, row.violationType, row.description,
             row.violationDate, row.dueDate, StatusName(row.status), row.issuedByUsername)
  }

  /** The CSS class of a fine card, chosen by status name. */
  function StatusClass(status: string): (c: string)
    ensures c == "status-paid" <==> status == "PAID"
    ensures c == "status-unpaid" <==> status == "UNPAID"
    ensures c == "status-paid" || c == "status-unpaid" || c == "status-other"
  {
    if status == "PAID" then "status-paid"
    else if status == "UNPAID" then "status-unpaid"
    else "status-other"
  }

  /** A stored fine gets the class of its status, and a cancelled one the neutral class. */
  lemma StatusClassOfRow(row: FineRow)
    ensures StatusClass(ToJson(row).status) ==
              match row.status
              case PAID => "status-paid"
              case UNPAID => "status-unpaid"
              case CANCELLED => "status-other"
  {
  }

  /** The "Issued By" text of a card. */
  function IssuerText(f: FineJson): string
  {
    OrElse(f.issuedByUsername, "System")
  }

  /** The "Description" text of a card. */
  function DescriptionText(f: FineJson): string
  {
    OrElse(f.description, "No description")
  }
}

=== FILE: common.dfy ===
/** Small value types shared by every part of the model. */
module Common {

  /** A value that may be absent: Java `null`, a JSON `null` or a missing JavaScript property. */
  datatype Option<+T> = None | Some(value: T)

  /** The outcome of a service call that either returns a value or throws with a message. */
  datatype Result<+T> = Ok(value: T) | Err(message: string)

  /** JavaScript truthiness of an optional string: present and not empty. */
  predicate Truthy(s: Option<string>)
  {
    s.Some? && s.value != ""
  }

  /** JavaScript `s || fallback` for an optional string. */
  function OrElse(s: Option<string>, fallback: string): string
  {
    if Truthy(s) then s.value else fallback
  }

  /** What `localStorage.setItem` stores for a JSON string that may be `null`. */
  function StoredText(s: Option<string>): string
  {
    if s.Some? then s.value else "null"
  }

  function DigitChar(d: nat): char
    requires d < 10
  {
    "0123456789"[d]
  }

  /** The decimal text of a natural number, as JavaScript and Python print it. */
  function DecimalString(n: nat): (r: string)
    ensures |r| >= 1
    ensures forall i :: 0 <= i < |r| ==> '0' <= r[i] <= '9'
    decreases n
  {
    if n < 10 then [DigitChar(n)] else DecimalString(n / 10) + [DigitChar(n % 10)]
  }
}

=== FILE: csv.dfy ===
/** The CSV export of the fines list, and a reader for CSV records in the format of RFC 4180
    (section 2: fields separated by commas, a field enclosed in double quotes when it contains
    commas or quotes, and a double quote inside such a field written twice). */
module Csv {

  import opened Common
  import opened Strings
  import opened ClientApi

  const Header: string :=
    "License Plate,Amount,Violation Type,Description,Violation Date,Due Date,Status,Issued By\n"

  const Quote: char := '"'

  /** `replace(/"/g, '""')`: every double quote written twice. */
  function DoubleQuotes(s: string): (r: string)
    ensures Quote !in s ==> r == s
    decreases |s|
  {
    if s == [] then []
    else (if s[0] == Quote then [Quote, Quote] else [s[0]]) + DoubleQuotes(s[1..])
  }

  /** How one field is written: enclosed in quotes with inner quotes doubled, enclosed in quotes
      as it is, or bare. */
  datatype Field = Escaped(text: string) | Verbatim(text: string) | Bare(text: string)

  function Encode(f: Field): string
  {
    match f
    case Escaped(t) => [Quote] + DoubleQuotes(t) + [Quote]
    case Verbatim(t) => [Quote] + t + [Quote]
    case Bare(t) => t
  }

  /** The fields joined by commas. */
  function Record(fields: seq<Field>): string
    requires |fields| >= 1
    decreases |fields|
  {
    if |fields| == 1 then Encode(fields[0]) else Encode(fields[0]) + ("," + Record(fields[1..]))
  }

  /** The content of a quoted field, read after its opening quote up to the closing one (a pair
      of quotes stands for one), and what follows the closing quote. */
  function ReadQuoted(s: string): (r: Option<(string, string)>)
    ensures r.Some? ==> |r.value.1| < |s|
    decreases |s|
  {
    if s == [] then None
    else if s[0] == Quote then
      if |s| >= 2 && s[1] == Quote then
        match ReadQuoted(s[2..])
        case None => None
        case Some((t, rest)) => Some(([Quote] + t, rest))
      else Some(([], s[1..]))
    else
      match ReadQuoted(s[1..])
      case None => None
      case Some((t, rest)) => Some(([s[0]] + t, rest))
  }

  /** One more field in front of a parsed rest, when the rest parsed. */
  function Prepend(t: string, rest: Option<seq<string>>): Option<seq<string>>
  {
    if rest.None? then None else Some([t] + rest.value)
  }

  /** The fields of one record (a line without its line break), or nothing when the text is not
      a well-formed record: a quoted field must be followed by a comma or the end, and a bare
      field must not contain a quote. */
  function ParseRecord(s: string): Option<seq<string>>
    decreases |s|
  {
    if s != [] && s[0] == Quote then
      match ReadQuoted(s[1..])
      case None => None
      case Some((t, rest)) =>
        if rest == [] then Some([t])
        else if rest[0] != ',' then None
        else Prepend(t, ParseRecord(rest[1..]))
    else
      match IndexOfChar(s, ',')
      case None => if Quote in s then None else Some([s])
      case Some(i) =>
        if Quote in s[..i] then None else Prepend(s[..i], ParseRecord(s[i + 1..]))
  }

  /** A field that reads back as its text: an escaped one always, the other two when the text
      has no quote, and a bare one also no comma. */
  predicate Readable(f: Field)
  {
    match f
    case Escaped(_) => true
    case Verbatim(t) => Quote !in t
    case Bare(t) => Quote !in t && ',' !in t
  }

  function Texts(fields: seq<Field>): (r: seq<string>)
    ensures |r| == |fields| && forall i :: 0 <= i < |fields| ==> r[i] == fields[i].text
  {
    seq(|fields|, i requires 0 <= i < |fields| => fields[i].text)
  }

  /** Reading an escaped field's content gives back the text and what follows the closing
      quote, provided that does not start with another quote. */
  lemma {:induction false} ReadEscaped(t: string, rest: string)
    requires rest == [] || rest[0] != Quote
    ensures ReadQuoted(DoubleQuotes(t) + [Quote] + rest) == Some((t, rest))
    decreases |t|
  {
    var s := DoubleQuotes(t) + [Quote] + rest;
    if t == [] {
      assert s == [Quote] + rest;
      assert s[1..] == rest;
    } else {
      var s' := DoubleQuotes(t[1..]) + [Quote] + rest;
      ReadEscaped(t[1..], rest);
      if t[0] == Quote {
        assert s == [Quote, Quote] + s';
        assert s[2..] == s';
      } else {
        assert s == [t[0]] + s';
        assert s[1..] == s';
      }
      assert [t[0]] + t[1..] == t;
    }
  }

  /** The first comma of `a + "," + b` is the one after `a` when `a` has none. */
  lemma FirstComma(a: string, b: string)
    requires ',' !in a
    ensures IndexOfChar(a + "," + b, ',') == Some(|a|)
  {
    var s := a + "," + b;
    assert s[|a|] == ',';
    assert forall k :: 0 <= k < |a| ==> s[k] == a[k];
    assert forall j :: |a| < j <= |s| ==> s[..j][|a|] == ',';
  }

  /** What follows a field in a record: nothing, or a comma and the next fields. */
  predicate FieldEnd(tail: string)
  {
    tail == [] || tail[0] == ','
  }

  /** The fields read from a record made of one field and `tail`. */
  function AfterField(t: string, tail: string): Option<seq<string>>
    requires FieldEnd(tail)
    decreases |tail|, 1
  {
    if tail == [] then Some([t]) else Prepend(t, ParseRecord(tail[1..]))
  }

  /** An escaped field is read back as its text, and reading goes on after it. */
  lemma EscapedHead(text: string, tail: string)
    requires FieldEnd(tail)
    ensures ParseRecord(Encode(Escaped(text)) + tail) == AfterField(text, tail)
  {
    var s := Encode(Escaped(text)) + tail;
    assert s == [Quote] + (DoubleQuotes(text) + [Quote] + tail);
    assert s[1..] == DoubleQuotes(text) + [Quote] + tail;
    ReadEscaped(text, tail);
  }

  /** A bare field without quotes or commas is read back as its text. */
  lemma BareHead(text: string, tail: string)
    requires Quote !in text && ',' !in text
    requires FieldEnd(tail)
    ensures ParseRecord(text + tail) == AfterField(text, tail)
  {
    var s := text + tail;
    if text != [] {
      assert s[0] == text[0];
    }
    if tail == [] {
      assert s == text;
    } else {
      assert s == text + "," + tail[1..];
      FirstComma(text, tail[1..]);
      assert s[..|text|] == text;
      assert s[|text| + 1..] == tail[1..];
    }
  }

  /** A readable field at the head of a record is read back as its text. */
  lemma HeadField(f: Field, tail: string)
    requires Readable(f) && FieldEnd(tail)
    ensures ParseRecord(Encode(f) + tail) == AfterField(f.text, tail)
  {
    if f.Bare? {
      BareHead(f.text, tail);
    } else {
      assert Encode(f) == Encode(Escaped(f.text));
      EscapedHead(f.text, tail);
    }
  }

  lemma TextsCons(fields: seq<Field>)
    requires |fields| > 1
    ensures Texts(fields) == [fields[0].text] + Texts(fields[1..])
  {
  }

  /** Every record of readable fields reads back as the fields' texts. */
  lemma {:induction false} RecordRoundTrip(fields: seq<Field>)
    requires |fields| >= 1
    requires forall i :: 0 <= i < |fields| ==> Readable(fields[i])
    ensures ParseRecord(Record(fields)) == Some(Texts(fields))
    decreases |fields|
  {
    if |fields| == 1 {
      assert Record(fields) == Encode(fields[0]) + "";
      HeadField(fields[0], "");
      assert Texts(fields) == [fields[0].text];
    } else {
      var tail := "," + Record(fields[1..]);
      HeadField(fields[0], tail);
      assert tail[1..] == Record(fields[1..]);
      RecordRoundTrip(fields[1..]);
      TextsCons(fields);
    }
  }

  /** The fields of one exported line, as the export writes them: only the description is
      escaped; every other text field is put between quotes as it is. `dateText` and
      `amountText` are `toLocaleDateString` and the number-to-text conversion. */
  function FieldsAsWritten(f: FineJson, dateText: int -> string, amountText: real -> string): (r: seq<Field>)
    ensures |r| == 8
  {
    [Verbatim(f.licensePlateNumber),
     Bare(amountText(f.amount)),
     Verbatim(f.violationType),
     if Truthy(f.description) then Escaped(f.description.value) else Bare(""),
     Verbatim(dateText(f.violationDate)),
     Verbatim(if f.dueDate.Some? then dateText(f.dueDate.value) else "Not set"),
     Verbatim(f.status),
     Verbatim(OrElse(f.issuedByUsername, "System"))]
  }

  /** The same line with every quoted field escaped. */
  function Fields(f: FineJson, dateText: int -> string, amountText: real -> string): (r: seq<Field>)
    ensures |r| == 8
    ensures forall i :: 0 <= i < 8 ==> r[i].text == FieldsAsWritten(f, dateText, amountText)[i].text
  {
    [Escaped(f.licensePlateNumber),
     Bare(amountText(f.amount)),
     Escaped(f.violationType),
     if Truthy(f.description) then Escaped(f.description.value) else Bare(""),
     Escaped(dateText(f.violationDate)),
     Escaped(if f.dueDate.Some? then dateText(f.dueDate.value) else "Not set"),
     Escaped(f.status),
     Escaped(OrElse(f.issuedByUsername, "System"))]
  }

  /** The texts a line carries: the plate, the amount, the type, the description (empty when
      there is none), the two dates, the status and the issuer ("System" when there is none). */
  function LineTexts(f: FineJson, dateText: int -> string, amountText: real -> string): seq<string>
  {
    [f.licensePlateNumber, amountText(f.amount), f.violationType,
     OrElse(f.description, ""),
     dateText(f.violationDate), if f.dueDate.Some? then dateText(f.dueDate.value) else "Not set",
     f.status, OrElse(f.issuedByUsername, "System")]
  }

  function LineAsWritten(f: FineJson, dateText: int -> string, amountText: real -> string): string
  {
    Record(FieldsAsWritten(f, dateText, amountText)) + "\n"
  }

  function Line(f: FineJson, dateText: int -> string, amountText: real -> string): string
  {
    Record(Fields(f, dateText, amountText)) + "\n"
  }

  /** Every exported line reads back as the fine's texts, whatever characters they hold, as long
      as the number text has no comma or quote. */
  lemma LineReadsBack(f: FineJson, dateText: int -> string, amountText: real -> string)
    requires ',' !in amountText(f.amount) && Quote !in amountText(f.amount)
    ensures ParseRecord(Record(Fields(f, dateText, amountText))) == Some(LineTexts(f, dateText, amountText))
  {
    var fields := Fields(f, dateText, amountText);
    RecordRoundTrip(fields);
    assert Texts(fields) == LineTexts(f, dateText, amountText);
  }

  /** A record starting with the quoted plate `A"1`, written without escaping, is malformed
      whatever follows: the quote inside closes the field, and `1` follows instead of a comma. */
  lemma UnescapedQuoteUnreadable(rest: string)
    ensures ParseRecord("\"A\"1\"" + rest) == None
  {
    var s := "\"A\"1\"" + rest;
    var afterA := "\"1\"" + rest;
    assert s[1..] == ['A'] + afterA;
    assert (['A'] + afterA)[1..] == afterA;
    assert afterA[1..] == "1\"" + rest;
    assert ReadQuoted(afterA) == Some(([], "1\"" + rest));
    assert ReadQuoted(s[1..]) == Some((['A'] + [], "1\"" + rest));
  }

  /** The export as written breaks its own format when a plate holds a double quote: the line
      of a fine with plate `A"1` is not a well-formed record, while the escaped line reads back. */
  lemma QuoteInPlateBreaksLine(f: FineJson, dateText: int -> string, amountText: real -> string)
    requires f.licensePlateNumber == "A\"1"
    requires ',' !in amountText(f.amount) && Quote !in amountText(f.amount)
    ensures ParseRecord(Record(FieldsAsWritten(f, dateText, amountText))) == None
    ensures ParseRecord(Record(Fields(f, dateText, amountText))) == Some(LineTexts(f, dateText, amountText))
  {
    var fields := FieldsAsWritten(f, dateText, amountText);
    assert Encode(fields[0]) == "\"A\"1\"";
    assert Record(fields) == "\"A\"1\"" + ("," + Record(fields[1..]));
    UnescapedQuoteUnreadable("," + Record(fields[1..]));
    LineReadsBack(f, dateText, amountText);
  }

  /** The lines of the given fines, one after the other, in list order. */
  function JoinLines(fines: seq<FineJson>, line: FineJson -> string): string
    decreases |fines|
  {
    if fines == [] then "" else JoinLines(fines[..|fines| - 1], line) + line(fines[|fines| - 1])
  }

  /** Writing one more fine appends its line. */
  lemma JoinStep(fines: seq<FineJson>, i: nat, line: FineJson -> string, before: string)
    requires i < |fines|
    ensures before + JoinLines(fines[..i + 1], line) == before + JoinLines(fines[..i], line) + line(fines[i])
  {
    assert fines[..i + 1][..i] == fines[..i];
    var a, b := JoinLines(fines[..i], line), line(fines[i]);
    assert before + (a + b) == before + a + b;
  }

  /** The whole export after the header: one line per fine, in list order. */
  function Lines(fines: seq<FineJson>, dateText: int -> string, amountText: real -> string): string
  {
    JoinLines(fines, f => Line(f, dateText, amountText))
  }
}

=== FILE: detect_page.dfy ===
/** The detection page: an image is taken from a file or the camera, sent to the backend for
    plate detection, and the detected plate is shown, copied, downloaded or handed on to the
    manage-fines page. When the backend cannot be used the page makes up a plate itself. */
module DetectPage {

  import opened Common
  import opened Strings
  import opened Session
  import opened ClientApi
  import opened PlateDetection

  const ResultPlaceholder: string := "No results yet. Upload an image and click \"Detect Plate\"."
  const PlatePlaceholder: string := "LICENSE PLATE"
  const NotFoundText: string := "NOT FOUND"
  const NoPlateText: string := "No license plate detected"
  const ResultFileName: string := "license_plate_result.txt"

  /** `s.split(',')[1]`: the text between the first comma and the next one (or the end), and
      nothing when there is no comma. */
  function SecondCommaField(s: string): (r: Option<string>)
    ensures r.None? <==> ',' !in s
    ensures r.Some? ==> ',' !in r.value
    ensures r.Some? ==>
              exists i :: 0 <= i < |s| && s[i] == ',' && ',' !in s[..i] && OccursAt(s, r.value, i + 1) &&
                          (i + 1 + |r.value| == |s| || s[i + 1 + |r.value|] == ',')
  {
    match IndexOfChar(s, ',')
    case None => None
    case Some(i) =>
      var rest := s[i + 1..];
      match IndexOfChar(rest, ',')
      case None =>
        assert OccursAt(s, rest, i + 1);
        Some(rest)
      case Some(j) =>
        assert rest[..j] == s[i + 1..i + 1 + j];
        assert OccursAt(s, rest[..j], i + 1);
        Some(rest[..j])
  }

  /** For a data URL, whose header and base64 payload hold no comma, the page sends exactly
      the payload. */
  lemma DataUrlPayload(header: string, payload: string)
    requires ',' !in header && ',' !in payload
    ensures SecondCommaField(header + "," + payload) == Some(payload)
  {
    var s := header + "," + payload;
    assert s[|header|] == ',';
    assert forall k :: 0 <= k < |header| ==> s[k] == header[k];
    assert forall j :: |header| < j <= |s| ==> s[..j][|header|] == ',';
    assert IndexOfChar(s, ',') == Some(|header|);
    assert s[|header| + 1..] == payload;
  }

  /** A file chosen in the file input. */
  datatype SelectedFile = SelectedFile(mimeType: string, dataUrl: string)

  /** The body posted to the detection endpoint, with the bearer token sent in its header. */
  datatype DetectRequest = DetectRequest(token: string, imageData: Option<string>)

  /** The detection reply as the page reads it. */
  datatype DetectJson = DetectJson(success: bool, licensePlateNumber: Option<string>, message: Option<string>)

  /** `textContent = v` for a value that may be null. */
  function TextOf(v: Option<string>): string
  {
    if v.Some? then v.value else ""
  }

  /** A result text there is something to copy or download from. */
  predicate HasResult(text: string)
  {
    text != "" && text != ResultPlaceholder
  }

  /** What `downloadResult` saves. */
  datatype Download = Download(fileName: string, content: string)

  /** Which way a detection request ended. */
  datatype DetectEnd = Expired | Fallback | Detected | NotFound

  function EndOf(reply: HttpReply<DetectJson>): DetectEnd
  {
    if reply.NetworkError? then Fallback
    else if reply.status == 401 then Expired
    else if !IsOk(reply.status) || reply.body.Unparsable? then Fallback
    else if reply.body.value.success then Detected
    else NotFound
  }

  class DetectPage {
    var cameraOn: bool
    var cameraControlsShown: bool
    var previewShown: bool
    var currentImageData: Option<string>
    var detectedLicensePlate: Option<string>
    var platePreview: string
    var extractedText: string
    var issueFineShown: bool
    var detectEnabled: bool
    var location: Option<string>
    const session: SessionStore

    /** The page as loaded; without a login it goes to the login page. */
    constructor (session: SessionStore)
      ensures this.session == session
      ensures location == LoginGuard(session.items)
      ensures currentImageData.None? && detectedLicensePlate.None? && !issueFineShown
      ensures !cameraOn && !cameraControlsShown && previewShown
      ensures platePreview == PlatePlaceholder && extractedText == ResultPlaceholder && detectEnabled
    {
      this.session := session;
      cameraOn, cameraControlsShown, previewShown := false, false, true;
      currentImageData, detectedLicensePlate := None, None;
      platePreview, extractedText := PlatePlaceholder, ResultPlaceholder;
      issueFineShown, detectEnabled := false, true;
      location := LoginGuard(session.items);
    }

    /** `closeCamera`: the stream is stopped and the preview shown, whatever the state was. */
    method CloseCamera()
      modifies this`cameraOn, this`cameraControlsShown, this`previewShown
      ensures !cameraOn && !cameraControlsShown && previewShown
    {
      cameraOn := false;
      cameraControlsShown := false;
      previewShown := true;
    }

    /** `handleFileSelect`: no file changes nothing; any file closes the camera; only an image
        becomes the current image. */
    method HandleFileSelect(file: Option<SelectedFile>)
      modifies this`cameraOn, this`cameraControlsShown, this`previewShown, this`currentImageData
      ensures file.None? ==> cameraOn == old(cameraOn) && cameraControlsShown == old(cameraControlsShown) &&
                             previewShown == old(previewShown) && currentImageData == old(currentImageData)
      ensures file.Some? ==> !cameraOn && !cameraControlsShown && previewShown
      ensures file.Some? && StartsWith(file.value.mimeType, "image/") ==> currentImageData == Some(file.value.dataUrl)
      ensures file.Some? && !StartsWith(file.value.mimeType, "image/") ==> currentImageData == old(currentImageData)
    {
      if file.None? {
        return;
      }
      CloseCamera();
      if !StartsWith(file.value.mimeType, "image/") {
        return;
      }
      currentImageData := Some(file.value.dataUrl);
    }

    /** `openCamera`: the camera shows only when the device supports it and access is granted. */
    method OpenCamera(supported: bool, granted: bool)
      modifies this`cameraOn, this`cameraControlsShown, this`previewShown
      ensures supported && granted ==> cameraOn && cameraControlsShown && !previewShown
      ensures !(supported && granted) ==>
                cameraOn == old(cameraOn) && cameraControlsShown == old(cameraControlsShown) &&
                previewShown == old(previewShown)
    {
      if supported && granted {
        cameraOn := true;
        previewShown := false;
        cameraControlsShown := true;
      }
    }

    /** `captureImage`: the frame, as a PNG data URL, becomes the current image. */
    method CaptureImage(frame: string)
      modifies this`cameraOn, this`cameraControlsShown, this`previewShown, this`currentImageData
      ensures currentImageData == Some(frame)
      ensures !cameraOn && !cameraControlsShown && previewShown
    {
      currentImageData := Some(frame);
      CloseCamera();
      previewShown := true;
    }

    /** `resetPreview`: back to the page as loaded; there is then nothing to copy. */
    method ResetPreview()
      modifies this`cameraOn, this`cameraControlsShown, this`previewShown, this`currentImageData
      modifies this`detectedLicensePlate, this`platePreview, this`extractedText, this`issueFineShown
      ensures !cameraOn && !cameraControlsShown && previewShown
      ensures currentImageData.None? && detectedLicensePlate.None? && !issueFineShown
      ensures platePreview == PlatePlaceholder && extractedText == ResultPlaceholder
      ensures CopyText().None? && DownloadResult().None?
    {
      CloseCamera();
      previewShown := true;
      platePreview := PlatePlaceholder;
      extractedText := ResultPlaceholder;
      currentImageData := None;
      detectedLicensePlate := None;
      issueFineShown := false;
    }

    /** `fallbackToMockDetection`: one of the sample plates (`pick` is the random index); the
        issue-fine button is shown to authorities and otherwise left as it was. */
    method FallbackToMockDetection(pick: nat)
      requires pick < |SamplePlates|
      modifies this`detectedLicensePlate, this`platePreview, this`extractedText, this`issueFineShown
      ensures detectedLicensePlate == Some(SamplePlates[pick])
      ensures platePreview == SamplePlates[pick] && extractedText == SamplePlates[pick]
      ensures issueFineShown == (old(issueFineShown) || session.GetItem(UserRoleKey) == Some("AUTHORITY"))
    {
      var plate := SamplePlates[pick];
      detectedLicensePlate := Some(plate);
      platePreview := plate;
      extractedText := plate;
      if session.GetItem(UserRoleKey) == Some("AUTHORITY") {
        issueFineShown := true;
      }
    }

    /** `detectLicensePlate`. Without an image, or without a token (then to the login page),
        nothing is sent. Otherwise the payload of the data URL is sent with the token, and the
        reply decides: 401 ends the session and goes to the login page; a network error, another
        non-2xx status or an unreadable body falls back to a made-up plate; a success shows the
        plate; a refusal shows "NOT FOUND". The button is enabled again on every path that sent. */
    method DetectLicensePlate(reply: HttpReply<DetectJson>, pick: nat) returns (sent: Option<DetectRequest>)
      requires pick < |SamplePlates|
      modifies this`detectedLicensePlate, this`platePreview, this`extractedText, this`issueFineShown
      modifies this`detectEnabled, this`location, session
      ensures !Truthy(old(currentImageData)) ==>
                sent.None? && location == old(location) && session.items == old(session.items) &&
                detectedLicensePlate == old(detectedLicensePlate) && platePreview == old(platePreview) &&
                extractedText == old(extractedText) && issueFineShown == old(issueFineShown) &&
                detectEnabled == old(detectEnabled)
      ensures Truthy(old(currentImageData)) && !Truthy(old(session.GetItem(AuthTokenKey))) ==>
                sent.None? && location == Some("login.html") && session.items == old(session.items) &&
                detectedLicensePlate == old(detectedLicensePlate) && platePreview == old(platePreview) &&
                extractedText == old(extractedText) && issueFineShown == old(issueFineShown) &&
                detectEnabled == old(detectEnabled)
      ensures sent.Some? <==> Truthy(old(currentImageData)) && Truthy(old(session.GetItem(AuthTokenKey)))
      ensures sent.Some? ==>
                && sent.value == DetectRequest(old(session.items[AuthTokenKey]), SecondCommaField(old(currentImageData.value)))
                && detectEnabled
      ensures sent.Some? && EndOf(reply) == Expired ==>
                session.items == old(session.items) - LoginKeys && location == Some("login.html") &&
                detectedLicensePlate == old(detectedLicensePlate) && platePreview == old(platePreview) &&
                extractedText == old(extractedText) && issueFineShown == old(issueFineShown)
      ensures sent.Some? && EndOf(reply) == Fallback ==>
                session.items == old(session.items) && location == old(location) &&
                detectedLicensePlate == Some(SamplePlates[pick]) && platePreview == SamplePlates[pick] &&
                extractedText == SamplePlates[pick] &&
                issueFineShown == (old(issueFineShown) || old(session.GetItem(UserRoleKey)) == Some("AUTHORITY"))
      ensures sent.Some? && EndOf(reply) == Detected ==>
                session.items == old(session.items) && location == old(location) &&
                detectedLicensePlate == reply.body.value.licensePlateNumber &&
                platePreview == TextOf(reply.body.value.licensePlateNumber) &&
                extractedText == TextOf(reply.body.value.licensePlateNumber) &&
                issueFineShown == (old(issueFineShown) || old(session.GetItem(UserRoleKey)) == Some("AUTHORITY"))
      ensures sent.Some? && EndOf(reply) == NotFound ==>
                session.items == old(session.items) && location == old(location) &&
                detectedLicensePlate == old(detectedLicensePlate) &&
                platePreview == NotFoundText && extractedText == NoPlateText && !issueFineShown
    {
      if !Truthy(currentImageData) {
        return None;
      }
      var token := session.GetItem(AuthTokenKey);
      if !Truthy(token) {
        location := Some("login.html");
        return None;
      }
      detectEnabled := false;
      sent := Some(DetectRequest(token.value, SecondCommaField(currentImageData.value)));
      var end := EndOf(reply);
      if end == Expired {
        session.ClearLogin();
        location := Some("login.html");
      } else if end == Fallback {
        FallbackToMockDetection(pick);
      } else if end == Detected {
        var plate := reply.body.value.licensePlateNumber;
        detectedLicensePlate := plate;
        platePreview := TextOf(plate);
        extractedText := TextOf(plate);
        if session.GetItem(UserRoleKey) == Some("AUTHORITY") {
          issueFineShown := true;
        }
      } else {
        platePreview := NotFoundText;
        extractedText := NoPlateText;
        issueFineShown := false;
      }
      detectEnabled := true;
    }

    /** `copyText`: the result text, unless it is empty or the placeholder. */
    function CopyText(): (copied: Option<string>)
      reads this
      ensures copied.Some? <==> HasResult(extractedText)
      ensures copied.Some? ==> copied.value == extractedText
    {
      if HasResult(extractedText) then Some(extractedText) else None
    }

    /** `downloadResult`: the result text as a file, under the same condition. */
    function DownloadResult(): (saved: Option<Download>)
      reads this
      ensures saved.Some? <==> HasResult(extractedText)
      ensures saved.Some? ==> saved.value == Download(ResultFileName, extractedText)
    {
      if HasResult(extractedText) then Some(Download(ResultFileName, extractedText)) else None
    }

    /** `redirectToIssueFine`: a detected plate is left for the manage-fines page, which the
        page then opens; without one nothing happens. */
    method RedirectToIssueFine()
      modifies this`location, session
      ensures Truthy(detectedLicensePlate) ==>
                session.items == old(session.items)[DetectedPlateKey := detectedLicensePlate.value] &&
                location == Some("manage-fines.html")
      ensures !Truthy(detectedLicensePlate) ==> session.items == old(session.items) && location == old(location)
    {
      if Truthy(detectedLicensePlate) {
        session.SetItem(DetectedPlateKey, detectedLicensePlate.value);
        location := Some("manage-fines.html");
      }
    }
  }

  /** A made-up plate is always something to copy. */
  lemma SamplePlatesAreResults(pick: nat)
    requires pick < |SamplePlates|
    ensures HasResult(SamplePlates[pick])
  {
  }
}

=== FILE: fine.dfy ===
/** The `Fine` entity: its status values, its persisted row and the Java object that builds it. */
module FineModel {

  import opened Common
  import opened UserModel

  datatype FineStatus = UNPAID | PAID | CANCELLED

  /** `FineStatus.name()`, the text the JSON and the database carry. */
  function StatusName(s: FineStatus): string
  {
    match s
    case UNPAID => "UNPAID"
    case PAID => "PAID"
    case CANCELLED => "CANCELLED"
  }

  /** A `LocalDateTime`, as a count of seconds. */
  type Timestamp = int

  const SecondsPerDay: int := 86400

  /** Days between the violation and the due date. */
  const DaysToPay: int := 30

  /** `LocalDateTime.plusDays`. */
  function PlusDays(t: Timestamp, days: int): Timestamp
  {
    t + days * SecondsPerDay
  }

  /** What a saved fine holds in the `fines` table (the fields the application reads). */
  datatype FineRow = FineRow(
    id: nat,
    licensePlateNumber: string,
    amount: real,
    violationType: string,
    description: Option<string>,
    violationDate: Timestamp,
    dueDate: Option<Timestamp>,
    status: FineStatus,
    issuedByUsername: Option<string>)

  /** The Java entity object, before and after it is given an id by `save`. */
  class Fine {
    var id: Option<nat>
    var licensePlateNumber: string
    var amount: real
    var violationType: string
    var description: Option<string>
    var violationDate: Timestamp
    var dueDate: Option<Timestamp>
    var status: FineStatus
    var issuedBy: Option<User>
    var issuedByUsername: Option<string>

    /** The six-argument constructor: stores its arguments, starts UNPAID, due 30 days later,
        and records the issuer's name, or "System" when there is no issuer. */
    constructor (licensePlateNumber: string, amount: real, violationType: string,
                 description: Option<string>, violationDate: Timestamp, issuedBy: Option<User>)
      ensures this.licensePlateNumber == licensePlateNumber && this.amount == amount
      ensures this.violationType == violationType && this.description == description
      ensures this.violationDate == violationDate && this.issuedBy == issuedBy
      ensures issuedByUsername == Some(if issuedBy.Some? then issuedBy.value.username else "System")
      ensures status == UNPAID
      ensures dueDate == Some(PlusDays(violationDate, DaysToPay))
      ensures id == None
    {
      this.id := None;
      this.licensePlateNumber := licensePlateNumber;
      this.amount := amount;
      this.violationType := violationType;
      this.description := description;
      this.violationDate := violationDate;
      this.issuedBy := issuedBy;
      this.issuedByUsername := Some(if issuedBy.Some? then issuedBy.value.username else "System");
      this.status := UNPAID;
      this.dueDate := Some(PlusDays(violationDate, DaysToPay));
    }

    /** The object the repository hands back for a stored row (JPA's no-argument constructor
        followed by field assignment). */
    constructor Load(row: FineRow)
      ensures id == Some(row.id) && Row() == row
    {
      this.id := Some(row.id);
      this.licensePlateNumber := row.licensePlateNumber;
      this.amount := row.amount;
      this.violationType := row.violationType;
      this.description := row.description;
      this.violationDate := row.violationDate;
      this.dueDate := row.dueDate;
      this.status := row.status;
      this.issuedBy := None;
      this.issuedByUsername := row.issuedByUsername;
    }

    /** `setIssuedBy`: a present issuer also overwrites the recorded name; an absent one does not. */
    method SetIssuedBy(issuedBy: Option<User>)
      modifies this`issuedBy, this`issuedByUsername
      ensures this.issuedBy == issuedBy
      ensures issuedByUsername == if issuedBy.Some? then Some(issuedBy.value.username) else old(issuedByUsername)
    {
      this.issuedBy := issuedBy;
      if issuedBy.Some? {
        this.issuedByUsername := Some(issuedBy.value.username);
      }
    }

    /** `setStatus`. */
    method SetStatus(status: FineStatus)
      modifies this`status
      ensures this.status == status
    {
      this.status := status;
    }

    /** `setId`, which the repository's `save` performs with the generated key. */
    method SetId(id: nat)
      modifies this`id
      ensures this.id == Some(id)
    {
      this.id := Some(id);
    }

    /** The row `save` writes for this object once it has an id. */
    function Row(): FineRow
      reads this
      requires id.Some?
    {
      FineRow(id.value, licensePlateNumber, amount, violationType, description,
              violationDate, dueDate, status, issuedByUsername)
    }
  }
}

=== FILE: fine_controller.dfy ===
/** The REST endpoints under `/api/fines`: each turns a request into a call on the fine service and
    the outcome into an HTTP status and a JSON body with a `success` flag. */
module FineApi {

  import opened Common
  import opened Seqs
  import opened Strings
  import opened UserModel
  import opened FineModel
  import opened FineRepository
  import opened FineLedger

  datatype Stats = Stats(totalFines: nat, unpaidFines: nat, paidFines: nat)

  /** The JSON body next to `success`. */
  datatype Body =
    | Message(message: string)
    | OneFine(fine: FineRow)
    | FineList(fines: seq<FineRow>)
    | StatsOf(stats: Stats)

  datatype Response = Response(status: int, success: bool, body: Body)

  const Ok200: int := 200
  const BadRequest400: int := 400
  const ServerError500: int := 500

  /** The `stats` of `getFineStats`: table size and the numbers of UNPAID and PAID fines. */
  function FineStats(rows: seq<FineRow>): (s: Stats)
    ensures s.totalFines == |rows|
    ensures s.unpaidFines == CountByStatus(rows, UNPAID) && s.paidFines == CountByStatus(rows, PAID)
    ensures s.unpaidFines + s.paidFines <= s.totalFines
  {
    CountDisjoint(rows, StatusIs(UNPAID), StatusIs(PAID));
    Stats(|rows|, Count(rows, StatusIs(UNPAID)), Count(rows, StatusIs(PAID)))
  }

  /** `FineStatus.valueOf`: the exact constant name, or the exception's message. */
  function ParseStatus(name: Option<string>): (r: Result<FineStatus>)
    ensures r.Ok? ==> name == Some(StatusName(r.value))
    ensures r.Err? <==> name.None? || forall s: FineStatus :: StatusName(s) != name.value
    ensures name.None? ==> r == Err("Name is null")
  {
    match name
    case None => Err("Name is null")
    case Some(n) =>
      if n == "UNPAID" then Ok(UNPAID)
      else if n == "PAID" then Ok(PAID)
      else if n == "CANCELLED" then Ok(CANCELLED)
      else Err("No enum constant com.smartlpd.model.FineStatus." + n)
  }

  /** Every status name parses back to its status. */
  lemma ParseStatusName(s: FineStatus)
    ensures ParseStatus(Some(StatusName(s))) == Ok(s)
  {
  }

  /** Names differing from a constant only in letter case are rejected. */
  lemma ParseStatusIsCaseSensitive()
    ensures ParseStatus(Some("paid")).Err? && ParseStatus(Some("Unpaid")).Err?
  {
  }

  class FineController {
    const service: FineService

    ghost predicate Valid()
      reads this, service
    {
      service.Valid()
    }

    constructor (service: FineService)
      ensures this.service == service
    {
      this.service := service;
    }

    /** POST `/api/fines`: the amount is parsed first; the issuer is always "system", so the stored
        fine is recorded as issued by "System". A failure answers 400 and stores nothing. */
    method CreateFine(licensePlateNumber: Option<string>, amount: Result<real>, violationType: Option<string>,
                      description: Option<string>, now: Timestamp, users: seq<User>, storeError: string)
      returns (resp: Response)
      requires Valid()
      modifies service
      ensures Valid()
      ensures resp.success <==> resp.status == Ok200
      ensures resp.success <==> amount.Ok? && licensePlateNumber.Some? && violationType.Some?
      ensures !resp.success ==> service.fines == old(service.fines) && resp.status == BadRequest400
      ensures amount.Err? ==> resp.body == Message("Error creating fine: " + amount.message)
      ensures resp.success ==>
                && resp.body == OneFine(NewFineRow(old(service.nextId), licensePlateNumber.value, amount.value,
                                                   violationType.value, description, now, None))
                && service.fines == old(service.fines) + [resp.body.fine]
                && resp.body.fine.issuedByUsername == Some("System")
    {
      if amount.Err? {
        return Response(BadRequest400, false, Message("Error creating fine: " + amount.message));
      }
      var saved := service.CreateFine(licensePlateNumber, amount.value, violationType, description,
                                      now, Some("system"), users);
      if saved.Some? {
        resp := Response(Ok200, true, OneFine(saved.value));
      } else {
        resp := Response(BadRequest400, false, Message("Error creating fine: " + storeError));
      }
    }

    /** GET `/api/fines/check`: a blank plate is refused before any lookup. */
    method CheckFines(licensePlateNumber: string) returns (resp: Response)
      ensures JavaBlank(licensePlateNumber) ==>
                resp == Response(BadRequest400, false, Message("License plate number is required"))
      ensures !JavaBlank(licensePlateNumber) ==>
                resp == Response(Ok200, true, FineList(FindByLicensePlate(service.fines, licensePlateNumber)))
    {
      if JavaBlank(licensePlateNumber) {
        return Response(BadRequest400, false, Message("License plate number is required"));
      }
      var fines := service.GetFinesByLicensePlate(licensePlateNumber);
      resp := Response(Ok200, true, FineList(fines));
    }

    /** GET `/api/fines`. */
    method GetAllFines() returns (resp: Response)
      ensures resp == Response(Ok200, true, FineList(service.fines))
    {
      var fines := service.GetAllFines();
      resp := Response(Ok200, true, FineList(fines));
    }

    /** POST `/api/fines/pay/{fineId}`: a missing plate matches no row (the column is NOT NULL).
        The refusal message says "already paid", but a PAID fine is paid again successfully. */
    method PayFine(fineId: int, licensePlateNumber: Option<string>) returns (resp: Response)
      requires Valid()
      modifies service
      ensures Valid()
      ensures resp.success <==>
                licensePlateNumber.Some? && old(FindByIdAndLicensePlate(service.fines, fineId, licensePlateNumber.value)).Some?
      ensures resp.success ==> resp == Response(Ok200, true, Message("Fine paid successfully"))
                               && FindById(service.fines, fineId).Some?
                               && FindById(service.fines, fineId).value.status == PAID
      ensures !resp.success ==> resp == Response(BadRequest400, false, Message("Fine not found or already paid"))
                                && service.fines == old(service.fines)
    {
      var paid := false;
      if licensePlateNumber.Some? {
        paid := service.PayFine(fineId, licensePlateNumber.value);
      }
      if paid {
        resp := Response(Ok200, true, Message("Fine paid successfully"));
      } else {
        resp := Response(BadRequest400, false, Message("Fine not found or already paid"));
      }
    }

    /** PUT `/api/fines/{fineId}/status`: an unknown status name or fine id answers 500 and
        changes nothing; otherwise the fine takes the named status, whatever it had before. */
    method UpdateFineStatus(fineId: int, status: Option<string>) returns (resp: Response)
      requires Valid()
      modifies service
      ensures Valid()
      ensures resp.success <==> ParseStatus(status).Ok? && old(IndexOfId(service.fines, fineId)).Some?
      ensures !resp.success ==> resp.status == ServerError500 && service.fines == old(service.fines)
      ensures ParseStatus(status).Err? ==>
                resp.body == Message("Error updating fine status: " + ParseStatus(status).message)
      ensures ParseStatus(status).Ok? && old(IndexOfId(service.fines, fineId)).None? ==>
                resp.body == Message("Error updating fine status: Fine not found")
      ensures resp.success ==>
                var i := old(IndexOfId(service.fines, fineId)).value;
                && resp.status == Ok200
                && service.fines == old(service.fines)[i := old(service.fines)[i].(status := ParseStatus(status).value)]
                && resp.body == OneFine(service.fines[i])
    {
      var parsed := ParseStatus(status);
      if parsed.Err? {
        return Response(ServerError500, false, Message("Error updating fine status: " + parsed.message));
      }
      var updated := service.UpdateFineStatus(fineId, parsed.value);
      if updated.Ok? {
        resp := Response(Ok200, true, OneFine(updated.value));
      } else {
        resp := Response(ServerError500, false, Message("Error updating fine status: " + updated.message));
      }
    }

    /** GET `/api/fines/stats`. */
    method GetFineStats() returns (resp: Response)
      ensures resp == Response(Ok200, true, StatsOf(FineStats(service.fines)))
    {
      var fines := service.GetAllFines();
      resp := Response(Ok200, true, StatsOf(FineStats(fines)));
    }
  }
}

=== FILE: fine_repository.dfy ===
/** The derived queries of the fine repository, as functions over the rows of the `fines` table.
    The table is a sequence in insertion (id) order. A query ordered by violation date is
    answered by a stable sort; the database may order rows with equal dates differently, so the
    contracts state only what every admissible answer has in common. */
module FineRepository {

  import opened Common
  import opened Seqs
  import opened Strings
  import opened FineModel

  /** The WHERE clauses of the derived queries. */
  function PlateIs(plate: string): FineRow -> bool
  {
    (f: FineRow) => f.licensePlateNumber == plate
  }

  function StatusIs(status: FineStatus): FineRow -> bool
  {
    (f: FineRow) => f.status == status
  }

  function PlateAndStatusAre(plate: string, status: FineStatus): FineRow -> bool
  {
    (f: FineRow) => f.licensePlateNumber == plate && f.status == status
  }

  function PlateMatching(term: string): FineRow -> bool
  {
    (f: FineRow) => PlateMatches(f, term)
  }

  /** Newest violation first. */
  predicate SortedByDateDesc(s: seq<FineRow>)
  {
    forall i, j :: 0 <= i < j < |s| ==> s[i].violationDate >= s[j].violationDate
  }

  /** `r` is an admissible answer to "rows satisfying `p`, ORDER BY violationDate DESC". */
  predicate OrderedSelection(r: seq<FineRow>, rows: seq<FineRow>, p: FineRow -> bool)
  {
    SortedByDateDesc(r) && multiset(r) == multiset(Filter(rows, p))
  }

  function InsertByDateDesc(f: FineRow, s: seq<FineRow>): (r: seq<FineRow>)
    ensures multiset(r) == multiset(s) + multiset{f}
    ensures |r| == |s| + 1
    ensures r[0] == f || (s != [] && r[0] == s[0])
    decreases |s|
  {
    if s == [] then [f]
    else if f.violationDate >= s[0].violationDate then [f] + s
    else
      assert s == [s[0]] + s[1..];
      [s[0]] + InsertByDateDesc(f, s[1..])
  }

  lemma {:induction false} InsertKeepsSorted(f: FineRow, s: seq<FineRow>)
    requires SortedByDateDesc(s)
    ensures SortedByDateDesc(InsertByDateDesc(f, s))
    decreases |s|
  {
    if s != [] && f.violationDate < s[0].violationDate {
      var rest := InsertByDateDesc(f, s[1..]);
      InsertKeepsSorted(f, s[1..]);
      assert rest[0].violationDate <= s[0].violationDate by {
        if rest[0] != f {
          assert rest[0] == s[1];
        }
      }
      var r := [s[0]] + rest;
      assert r == InsertByDateDesc(f, s);
      forall i, j | 0 <= i < j < |r| ensures r[i].violationDate >= r[j].violationDate {
        if i == 0 {
          assert r[j] == rest[j - 1];
          assert rest[0].violationDate >= rest[j - 1].violationDate;
        } else {
          assert r[i] == rest[i - 1] && r[j] == rest[j - 1];
        }
      }
    }
  }

  /** Insertion sort by violation date, newest first; rows with equal dates keep table order. */
  function SortByDateDesc(s: seq<FineRow>): (r: seq<FineRow>)
    ensures SortedByDateDesc(r)
    ensures multiset(r) == multiset(s)
    decreases |s|
  {
    if s == [] then []
    else
      assert s == [s[0]] + s[1..];
      InsertKeepsSorted(s[0], SortByDateDesc(s[1..]));
      InsertByDateDesc(s[0], SortByDateDesc(s[1..]))
  }

  /** Every row a query answer holds satisfies the WHERE clause, and every satisfying row is there. */
  lemma SelectionMembers(r: seq<FineRow>, rows: seq<FineRow>, p: FineRow -> bool)
    requires OrderedSelection(r, rows, p)
    ensures forall f :: f in r <==> f in rows && p(f)
    ensures |r| == Count(rows, p)
  {
    FilterIsOrderedSelection(rows, p);
    forall f ensures f in r <==> f in rows && p(f) {
      assert f in r <==> f in multiset(r);
      assert f in Filter(rows, p) <==> f in multiset(Filter(rows, p));
    }
    assert |multiset(r)| == |multiset(Filter(rows, p))|;
  }

  /** `findByLicensePlateNumberOrderByViolationDateDesc`. */
  function FindByLicensePlate(rows: seq<FineRow>, plate: string): (r: seq<FineRow>)
    ensures OrderedSelection(r, rows, PlateIs(plate))
    ensures forall f :: f in r <==> f in rows && f.licensePlateNumber == plate
  {
    var r := SortByDateDesc(Filter(rows, PlateIs(plate)));
    SelectionMembers(r, rows, PlateIs(plate));
    r
  }

  /** `findByLicensePlateNumberAndStatusOrderByViolationDateDesc`. */
  function FindByLicensePlateAndStatus(rows: seq<FineRow>, plate: string, status: FineStatus): (r: seq<FineRow>)
    ensures OrderedSelection(r, rows, PlateAndStatusAre(plate, status))
    ensures forall f :: f in r <==> f in rows && f.licensePlateNumber == plate && f.status == status
  {
    var r := SortByDateDesc(Filter(rows, PlateAndStatusAre(plate, status)));
    SelectionMembers(r, rows, PlateAndStatusAre(plate, status));
    r
  }

  /** `findByStatusOrderByViolationDateDesc`. */
  function FindByStatus(rows: seq<FineRow>, status: FineStatus): (r: seq<FineRow>)
    ensures OrderedSelection(r, rows, StatusIs(status))
    ensures forall f :: f in r <==> f in rows && f.status == status
  {
    var r := SortByDateDesc(Filter(rows, StatusIs(status)));
    SelectionMembers(r, rows, StatusIs(status));
    r
  }

  /** The search condition: LOWER(plate) LIKE LOWER('%' + term + '%'), wildcards in `term` ignored. */
  predicate PlateMatches(f: FineRow, term: string)
  {
    Contains(ToLower(f.licensePlateNumber), ToLower(term))
  }

  /** `findByLicensePlateNumberContainingIgnoreCaseOrderByViolationDateDesc`. */
  function SearchByPlate(rows: seq<FineRow>, term: string): (r: seq<FineRow>)
    ensures OrderedSelection(r, rows, PlateMatching(term))
    ensures forall f :: f in r <==> f in rows && Contains(ToLower(f.licensePlateNumber), ToLower(term))
  {
    var r := SortByDateDesc(Filter(rows, PlateMatching(term)));
    SelectionMembers(r, rows, PlateMatching(term));
    r
  }

  /** An empty search term matches every row. */
  lemma {:induction false} EmptySearchFindsAll(rows: seq<FineRow>)
    ensures multiset(SearchByPlate(rows, "")) == multiset(rows)
  {
    forall f | f in rows ensures PlateMatches(f, "") {
      EmptyContained(ToLower(f.licensePlateNumber));
    }
    FilterAll(rows, PlateMatching(""));
  }

  /** `countByStatus`. */
  function CountByStatus(rows: seq<FineRow>, status: FineStatus): (n: nat)
    ensures n == |FindByStatus(rows, status)|
    ensures n <= |rows|
  {
    SelectionMembers(FindByStatus(rows, status), rows, StatusIs(status));
    FilterIsOrderedSelection(rows, StatusIs(status));
    Count(rows, StatusIs(status))
  }

  /** The position of the row with key `id` at or after position `from`. */
  function IndexOfIdFrom(rows: seq<FineRow>, id: int, from: nat): (r: Option<nat>)
    requires from <= |rows|
    ensures r.Some? ==> from <= r.value < |rows| && rows[r.value].id == id
    ensures r.None? ==> forall j :: from <= j < |rows| ==> rows[j].id != id
    decreases |rows| - from
  {
    if from == |rows| then None
    else if rows[from].id == id then Some(from)
    else IndexOfIdFrom(rows, id, from + 1)
  }

  /** The position of the row with primary key `id`. */
  function IndexOfId(rows: seq<FineRow>, id: int): (r: Option<nat>)
    ensures r.Some? ==> r.value < |rows| && rows[r.value].id == id
    ensures r.None? <==> forall f :: f in rows ==> f.id != id
  {
    IndexOfIdFrom(rows, id, 0)
  }

  /** `findById`. */
  function FindById(rows: seq<FineRow>, id: int): (r: Option<FineRow>)
    ensures r.Some? ==> r.value in rows && r.value.id == id
    ensures r.None? <==> forall f :: f in rows ==> f.id != id
  {
    match IndexOfId(rows, id)
    case Some(i) => Some(rows[i])
    case None => None
  }

  /** `findByIdAndLicensePlateNumber`: the row with that key, provided its plate is exactly `plate`. */
  function FindByIdAndLicensePlate(rows: seq<FineRow>, id: int, plate: string): (r: Option<FineRow>)
    ensures r.Some? <==> FindById(rows, id).Some? && FindById(rows, id).value.licensePlateNumber == plate
    ensures r.Some? ==> r.value in rows && r.value.id == id && r.value.licensePlateNumber == plate
  {
    match FindById(rows, id)
    case Some(f) => if f.licensePlateNumber == plate then Some(f) else None
    case None => None
  }
}

=== FILE: fine_service.dfy ===
/** The fine service together with the table its repository manages: a store of fines keyed by
    a generated id, created, re-statused and paid in place. */
module FineLedger {

  import opened Common
  import opened UserModel
  import opened FineModel
  import opened FineRepository

  /** The issuer `createFine` attaches: no lookup for an absent name or for "system", and no
      issuer for a name the user table does not hold. */
  function Issuer(issuedByUsername: Option<string>, users: seq<User>): (r: Option<User>)
    ensures issuedByUsername.None? || issuedByUsername == Some("system") ==> r.None?
    ensures r.Some? ==> r.value in users && issuedByUsername == Some(r.value.username)
    ensures issuedByUsername.Some? && issuedByUsername.value != "system" ==>
              (r.None? <==> forall u :: u in users ==> u.username != issuedByUsername.value)
  {
    if issuedByUsername.Some? && issuedByUsername.value != "system" then
      FindByUsername(users, issuedByUsername.value)
    else None
  }

  /** The row a newly created fine is stored as. */
  function NewFineRow(id: nat, licensePlateNumber: string, amount: real, violationType: string,
                      description: Option<string>, violationDate: Timestamp, issuer: Option<User>): FineRow
  {
    FineRow(id, licensePlateNumber, amount, violationType, description, violationDate,
            Some(PlusDays(violationDate, DaysToPay)), UNPAID,
            Some(if issuer.Some? then issuer.value.username else "System"))
  }

  class FineService {
    /** The `fines` table, in insertion order. */
    var fines: seq<FineRow>
    /** The next key the IDENTITY column hands out. */
    var nextId: nat

    /** Keys are unique and all below the next key to be generated. */
    ghost predicate Valid()
      reads this
    {
      && (forall i :: 0 <= i < |fines| ==> fines[i].id < nextId)
      && (forall i, j :: 0 <= i < j < |fines| ==> fines[i].id != fines[j].id)
    }

    constructor ()
      ensures Valid() && fines == [] && nextId == 1
    {
      fines := [];
      nextId := 1;
    }

    /** `createFine`: builds the entity and saves it, adding exactly one UNPAID fine. A missing
        plate or violation type breaks a NOT NULL column, so the save fails and nothing is stored. */
    method CreateFine(licensePlateNumber: Option<string>, amount: real, violationType: Option<string>,
                      description: Option<string>, violationDate: Timestamp,
                      issuedByUsername: Option<string>, users: seq<User>) returns (saved: Option<FineRow>)
      requires Valid()
      modifies this
      ensures Valid()
      ensures saved.Some? <==> licensePlateNumber.Some? && violationType.Some?
      ensures saved.None? ==> fines == old(fines) && nextId == old(nextId)
      ensures saved.Some? ==>
                && nextId == old(nextId) + 1
                && fines == old(fines) + [saved.value]
                && saved.value == NewFineRow(old(nextId), licensePlateNumber.value, amount, violationType.value,
                                             description, violationDate, Issuer(issuedByUsername, users))
                && CountByStatus(fines, UNPAID) == CountByStatus(old(fines), UNPAID) + 1
    {
      var issuer: Option<User> := None;
      if issuedByUsername.Some? && issuedByUsername.value != "system" {
        issuer := FindByUsername(users, issuedByUsername.value);
      }
      if licensePlateNumber.None? || violationType.None? {
        saved := None;
        return;
      }
      var fine := new Fine(licensePlateNumber.value, amount, violationType.value, description, violationDate, issuer);
      fine.SetId(nextId);
      var row := fine.Row();
      Seqs.CountAppend(fines, [row], StatusIs(UNPAID));
      fines := fines + [row];
      nextId := nextId + 1;
      saved := Some(row);
    }

    /** `getFinesByLicensePlate`. */
    method GetFinesByLicensePlate(licensePlateNumber: string) returns (r: seq<FineRow>)
      ensures r == FindByLicensePlate(fines, licensePlateNumber)
    {
      r := FindByLicensePlate(fines, licensePlateNumber);
    }

    /** `getUnpaidFinesByLicensePlate`. */
    method GetUnpaidFinesByLicensePlate(licensePlateNumber: string) returns (r: seq<FineRow>)
      ensures r == FindByLicensePlateAndStatus(fines, licensePlateNumber, UNPAID)
    {
      r := FindByLicensePlateAndStatus(fines, licensePlateNumber, UNPAID);
    }

    /** `getAllFines` (`findAll`, table order). */
    method GetAllFines() returns (r: seq<FineRow>)
      ensures r == fines
    {
      r := fines;
    }

    /** `searchFines`. */
    method SearchFines(searchTerm: string) returns (r: seq<FineRow>)
      ensures r == SearchByPlate(fines, searchTerm)
    {
      r := SearchByPlate(fines, searchTerm);
    }

    /** `updateFineStatus`: any status may be set on an existing fine; a missing id throws
        "Fine not found" and changes nothing. */
    method UpdateFineStatus(fineId: int, status: FineStatus) returns (r: Result<FineRow>)
      requires Valid()
      modifies this
      ensures Valid() && nextId == old(nextId)
      ensures old(IndexOfId(fines, fineId)).None? ==> fines == old(fines) && r == Err("Fine not found")
      ensures old(IndexOfId(fines, fineId)).Some? ==>
                var i := old(IndexOfId(fines, fineId)).value;
                fines == old(fines)[i := old(fines)[i].(status := status)] && r == Ok(fines[i])
    {
      var found := IndexOfId(fines, fineId);
      if found.None? {
        r := Err("Fine not found");
      } else {
        var i := found.value;
        var fine := new Fine.Load(fines[i]);
        fine.SetStatus(status);
        assert fine.Row() == fines[i].(status := status);
        fines := fines[i := fine.Row()];
        r := Ok(fines[i]);
      }
    }

    /** `payFine`: true exactly when a fine with this id has exactly this plate; that fine is
        then PAID (whatever its status was), and nothing else changes. */
    method PayFine(fineId: int, licensePlateNumber: string) returns (paid: bool)
      requires Valid()
      modifies this
      ensures Valid() && nextId == old(nextId)
      ensures paid <==> old(FindByIdAndLicensePlate(fines, fineId, licensePlateNumber)).Some?
      ensures !paid ==> fines == old(fines)
      ensures paid ==> var i := old(IndexOfId(fines, fineId)).value;
                       fines == old(fines)[i := old(fines)[i].(status := PAID)]
      ensures paid ==> FindById(fines, fineId).Some? && FindById(fines, fineId).value.status == PAID
    {
      var found := FindByIdAndLicensePlate(fines, fineId, licensePlateNumber);
      if found.None? {
        paid := false;
      } else {
        var i := IndexOfId(fines, fineId).value;
        var fine := new Fine.Load(fines[i]);
        fine.SetStatus(PAID);
        assert fine.Row() == fines[i].(status := PAID);
        fines := fines[i := fine.Row()];
        paid := true;
        assert fines[i].id == fineId && fines[i].status == PAID;
        UniqueIdFound(fines, i, fineId);
      }
    }

    /** Paying is idempotent: a second payment of the same fine succeeds exactly when the first
        did, and the table ends as after one payment. */
    method PayFineTwice(fineId: int, licensePlateNumber: string) returns (first: bool, second: bool)
      requires Valid()
      modifies this
      ensures Valid()
      ensures second == first
      ensures !first ==> fines == old(fines)
      ensures first ==> old(IndexOfId(fines, fineId)).Some?
      ensures first ==> var i := old(IndexOfId(fines, fineId)).value;
                        fines == old(fines)[i := old(fines)[i].(status := PAID)]
    {
      first := PayFine(fineId, licensePlateNumber);
      ghost var between := fines;
      second := PayFine(fineId, licensePlateNumber);
      if first {
        var i := IndexOfId(between, fineId).value;
        assert between[i].status == PAID && between[i].id == fineId;
        UniqueIdFound(between, i, fineId);
        assert fines == between;
      }
    }
  }

  /** With unique keys, the row found by id is the one at any position holding that id. */
  lemma UniqueIdFound(rows: seq<FineRow>, i: nat, id: int)
    requires i < |rows| && rows[i].id == id
    requires forall a, b :: 0 <= a < b < |rows| ==> rows[a].id != rows[b].id
    ensures IndexOfId(rows, id) == Some(i)
    ensures FindById(rows, id) == Some(rows[i])
  {
    assert rows[i] in rows;
  }
}

=== FILE: license_plate_service.dfy ===
/** The backend's detection service: it asks the recognition service for a plate and, when that
    gives no usable answer, makes one up from a fixed list of sample plates. The two random draws
    are parameters: `pick` is `random.nextInt(5)` and `u` is `random.nextDouble()`. */
module PlateDetection {

  import opened Common

  /** The `license_plate` entry of the recognition service's reply. */
  datatype PlateValue = PlateText(text: string) | PlateNull | PlateNotText

  /** The `confidence` entry: a JSON number or anything else. */
  datatype ConfidenceValue = Numeric(value: real) | NotNumeric

  /** What the recognition client returns: nothing, or a map whose `success` entry is or is not
      the boolean `true`. */
  datatype MlReply =
    | NoReply
    | Reply(successIsTrue: bool, plate: PlateValue, confidence: ConfidenceValue)

  const SamplePlates: seq<string> := ["ABC123", "XYZ789", "DEF456", "GHI789", "JKL012"]

  const DefaultConfidence: real := 0.85
  const MlMessage: string := "License plate detected using ML model"
  const NoResultsMessage: string := "ML service returned no results, using mock data"
  const UnavailableMessage: string := "ML service unavailable, using mock data"

  /** The fields of a `DetectionResponse`. */
  datatype Detection = Detection(licensePlateNumber: Option<string>, confidence: real, success: bool,
                                 message: Option<string>)

  /** The confidence of a made-up detection, `0.85 + u * 0.15`. */
  function MockConfidence(u: real): (c: real)
    requires 0.0 <= u < 1.0
    ensures DefaultConfidence <= c < 1.0
  {
    DefaultConfidence + u * 0.15
  }

  /** The reply carries a plate that the service takes over: `success` is `true` and the plate
      entry casts to a string (a non-string entry throws and lands in the fallback). */
  predicate MlAccepted(reply: MlReply)
  {
    reply.Reply? && reply.successIsTrue && !reply.plate.PlateNotText?
  }

  /** The response `detectLicensePlate` builds for a reply and the two random draws. */
  function ExpectedDetection(reply: MlReply, pick: nat, u: real): (d: Detection)
    requires pick < |SamplePlates| && 0.0 <= u < 1.0
    ensures d.success && d.message.Some?
    ensures d.message == Some(MlMessage) <==> MlAccepted(reply)
    ensures d.message == Some(UnavailableMessage) <==> reply.Reply? && reply.successIsTrue && reply.plate.PlateNotText?
    ensures !MlAccepted(reply) ==>
              d.licensePlateNumber.Some? && d.licensePlateNumber.value in SamplePlates &&
              DefaultConfidence <= d.confidence < 1.0
    ensures !(reply.Reply? && reply.successIsTrue) ==> d.message == Some(NoResultsMessage)
    ensures !MlAccepted(reply) ==>
              d.licensePlateNumber == Some(SamplePlates[pick]) && d.confidence == MockConfidence(u)
    ensures MlAccepted(reply) && reply.plate.PlateText? ==> d.licensePlateNumber == Some(reply.plate.text)
    ensures MlAccepted(reply) && reply.plate.PlateNull? ==> d.licensePlateNumber == None
    ensures MlAccepted(reply) && reply.confidence.Numeric? ==> d.confidence == reply.confidence.value
    ensures MlAccepted(reply) && reply.confidence.NotNumeric? ==> d.confidence == DefaultConfidence
  {
    if MlAccepted(reply) then
      Detection(if reply.plate.PlateText? then Some(reply.plate.text) else None,
                if reply.confidence.Numeric? then reply.confidence.value else DefaultConfidence,
                true, Some(MlMessage))
    else
      Detection(Some(SamplePlates[pick]), MockConfidence(u), true,
                Some(if reply.Reply? && reply.successIsTrue then UnavailableMessage else NoResultsMessage))
  }

  /** The response DTO, filled in by setters. */
  class DetectionResponse {
    var licensePlateNumber: Option<string>
    var confidence: real
    var success: bool
    var message: Option<string>

    constructor ()
      ensures View() == Detection(None, 0.0, false, None)
    {
      licensePlateNumber := None;
      confidence := 0.0;
      success := false;
      message := None;
    }

    function View(): Detection
      reads this
    {
      Detection(licensePlateNumber, confidence, success, message)
    }

    method SetLicensePlateNumber(licensePlateNumber: Option<string>)
      modifies this`licensePlateNumber
      ensures View() == old(View()).(licensePlateNumber := licensePlateNumber)
    {
      this.licensePlateNumber := licensePlateNumber;
    }

    method SetConfidence(confidence: real)
      modifies this`confidence
      ensures View() == old(View()).(confidence := confidence)
    {
      this.confidence := confidence;
    }

    method SetSuccess(success: bool)
      modifies this`success
      ensures View() == old(View()).(success := success)
    {
      this.success := success;
    }

    method SetMessage(message: Option<string>)
      modifies this`message
      ensures View() == old(View()).(message := message)
    {
      this.message := message;
    }
  }

  /** `fallbackToMockDetection`: a sample plate, a confidence in [0.85, 1.0), success; the
      message is left as it was. */
  method FallbackToMockDetection(response: DetectionResponse, pick: nat, u: real)
    requires pick < |SamplePlates| && 0.0 <= u < 1.0
    modifies response
    ensures response.View() == old(response.View()).(licensePlateNumber := Some(SamplePlates[pick]),
                                                      confidence := MockConfidence(u), success := true)
  {
    response.SetLicensePlateNumber(Some(SamplePlates[pick]));
    response.SetConfidence(MockConfidence(u));
    response.SetSuccess(true);
  }

  /** `detectLicensePlate`: the answer is always a success, taken from the recognition service
      when it accepted a plate and made up otherwise. */
  method DetectLicensePlate(reply: MlReply, pick: nat, u: real) returns (response: DetectionResponse)
    requires pick < |SamplePlates| && 0.0 <= u < 1.0
    ensures fresh(response)
    ensures response.View() == ExpectedDetection(reply, pick, u)
  {
    response := new DetectionResponse();
    if reply.Reply? && reply.successIsTrue {
      if reply.plate.PlateNotText? {
        FallbackToMockDetection(response, pick, u);
        response.SetMessage(Some(UnavailableMessage));
      } else {
        response.SetLicensePlateNumber(if reply.plate.PlateText? then Some(reply.plate.text) else None);
        if reply.confidence.Numeric? {
          response.SetConfidence(reply.confidence.value);
        } else {
          response.SetConfidence(DefaultConfidence);
        }
        response.SetSuccess(true);
        response.SetMessage(Some(MlMessage));
      }
    } else {
      FallbackToMockDetection(response, pick, u);
      response.SetMessage(Some(NoResultsMessage));
    }
  }
}

=== FILE: manage_fines_page.dfy ===
/** The authorities' "manage fines" page: it loads every fine and the fine statistics, filters the
    list by a search term, exports it as CSV, issues new fines and changes a fine's status. */
module ManageFinesPage {

  import opened Common
  import opened Strings
  import opened Seqs
  import opened Session
  import opened FineModel
  import opened FineRepository
  import opened FineApi
  import opened ClientApi
  import opened Csv

  const MissingFieldsNotice: string := "Please fill in all required fields with valid values."
  const IssuedNotice: string := "Fine issued successfully!"
  const IssueFailedNotice: string := "Failed to issue fine. Please try again."
  const LoadFailedNotice: string := "Failed to load fines. Please try again."
  const UpdatedNotice: string := "Fine status updated successfully!"
  const UpdateFailedNotice: string := "Failed to update fine status. Please try again."

  /** `value.trim().toLowerCase()`. */
  function SearchTerm(input: string): string
  {
    ToLower(JsTrim(input))
  }

  /** A fine matches a term through its plate, type, description or status, ignoring case. */
  predicate Matches(f: FineJson, term: string)
  {
    || Contains(ToLower(f.licensePlateNumber), term)
    || Contains(ToLower(f.violationType), term)
    || (Truthy(f.description) && Contains(ToLower(f.description.value), term))
    || Contains(ToLower(f.status), term)
  }

  /** The search's test for one term, as a function value. */
  function MatchesTerm(term: string): FineJson -> bool
  {
    f => Matches(f, term)
  }

  /** The fines the search shows: all of them for an empty term, otherwise exactly those that
      match, in list order, each as often as in the list. */
  function SearchFilter(fines: seq<FineJson>, input: string): (r: seq<FineJson>)
    ensures SearchTerm(input) == "" ==> r == fines
    ensures SearchTerm(input) != "" ==> IsSubsequence(r, fines)
    ensures SearchTerm(input) != "" ==>
              forall f :: f in r <==> f in fines && Matches(f, SearchTerm(input))
    ensures SearchTerm(input) != "" ==> |r| == Count(fines, MatchesTerm(SearchTerm(input)))
  {
    var term := SearchTerm(input);
    if term == "" then fines
    else
      var p := MatchesTerm(term);
      FilterIsOrderedSelection(fines, p);
      Filter(fines, p)
  }

  /** Every fine matches the lower-cased text of its own status. */
  lemma {:induction false} MatchesOwnStatus(f: FineJson)
    ensures Matches(f, ToLower(f.status))
  {
    ContainsSpec(ToLower(f.status), ToLower(f.status));
    assert OccursAt(ToLower(f.status), ToLower(f.status), 0);
  }

  /** The button that sets a fine to a status, and whether it is disabled. */
  datatype StatusButton = StatusButton(fineId: int, status: string, disabled: bool)

  /** One rendered fine with its two status buttons. Dates stay timestamps. */
  datatype AdminCard = AdminCard(statusClass: string, licensePlateNumber: string, amount: real,
                                 violationType: string, description: string, violationDate: Timestamp,
                                 dueDate: Option<Timestamp>, status: string, issuedBy: string,
                                 markPaid: StatusButton, cancel: StatusButton)

  /** "Mark Paid" is disabled for a paid fine, "Cancel" for any fine that is not unpaid. */
  function AdminCardOf(f: FineJson): (c: AdminCard)
    ensures c.markPaid == StatusButton(f.id, "PAID", f.status == "PAID")
    ensures c.cancel == StatusButton(f.id, "CANCELLED", f.status != "UNPAID")
    ensures c.statusClass == StatusClass(f.status)
  {
    AdminCard(StatusClass(f.status), f.licensePlateNumber, f.amount, f.violationType, DescriptionText(f),
              f.violationDate, f.dueDate, f.status, IssuerText(f),
              StatusButton(f.id, "PAID", f.status == "PAID"),
              StatusButton(f.id, "CANCELLED", f.status != "UNPAID"))
  }

  /** For a stored fine: an unpaid one can be marked paid or cancelled, a cancelled one only
      marked paid, a paid one neither; and both buttons send names the backend parses. */
  lemma {:induction false} ButtonsOfRow(row: FineRow)
    ensures !AdminCardOf(ToJson(row)).markPaid.disabled <==> row.status != PAID
    ensures !AdminCardOf(ToJson(row)).cancel.disabled <==> row.status == UNPAID
    ensures ParseStatus(Some(AdminCardOf(ToJson(row)).markPaid.status)) == Ok(PAID)
    ensures ParseStatus(Some(AdminCardOf(ToJson(row)).cancel.status)) == Ok(CANCELLED)
  {
    ParseStatusName(PAID);
    ParseStatusName(CANCELLED);
  }

  /** The list panel: the "no fines" notice or the cards. */
  datatype ListView = NoFinesNotice | CardList(cards: seq<AdminCard>)

  function ListOf(fines: seq<FineJson>): (v: ListView)
    ensures v.NoFinesNotice? <==> fines == []
    ensures v.CardList? ==> |v.cards| == |fines| &&
                            forall i :: 0 <= i < |fines| ==> v.cards[i] == AdminCardOf(fines[i])
  {
    if fines == [] then NoFinesNotice
    else CardList(seq(|fines|, i requires 0 <= i < |fines| => AdminCardOf(fines[i])))
  }

  /** The three statistics boxes. */
  datatype Counters = Counters(total: nat, unpaid: nat, paid: nat)

  /** The `stats` object of the statistics reply, each entry possibly missing. */
  datatype StatsCounts = StatsCounts(totalFines: Option<nat>, unpaidFines: Option<nat>, paidFines: Option<nat>)

  datatype StatsJson = StatsJson(success: bool, message: string, stats: Option<StatsCounts>)

  /** `n || 0`. */
  function OrZero(n: Option<nat>): nat
  {
    if n.Some? then n.value else 0
  }

  /** A usable statistics reply: 2xx, JSON, `success`, and a `stats` object. */
  predicate StatsUsable(reply: HttpReply<StatsJson>)
  {
    reply.Answered? && IsOk(reply.status) && reply.body.Parsed? && reply.body.value.success &&
    reply.body.value.stats.Some?
  }

  /** The boxes after `loadFineStats`: the reported numbers, and zeros on every failure. */
  function StatsShown(reply: HttpReply<StatsJson>): (c: Counters)
    ensures !StatsUsable(reply) ==> c == Counters(0, 0, 0)
  {
    if StatsUsable(reply) then
      var s := reply.body.value.stats.value;
      Counters(OrZero(s.totalFines), OrZero(s.unpaidFines), OrZero(s.paidFines))
    else Counters(0, 0, 0)
  }

  /** The JSON the statistics endpoint sends for a table. */
  function StatsReplyOf(rows: seq<FineRow>): HttpReply<StatsJson>
  {
    var s := FineStats(rows);
    Answered(200, Parsed(StatsJson(true, "", Some(StatsCounts(Some(s.totalFines), Some(s.unpaidFines), Some(s.paidFines))))))
  }

  /** The boxes show the table's size, its unpaid and paid counts, and the last two never add up
      to more than the first. */
  lemma StatsOfTable(rows: seq<FineRow>)
    ensures StatsShown(StatsReplyOf(rows)) ==
              Counters(|rows|, CountByStatus(rows, UNPAID), CountByStatus(rows, PAID))
    ensures StatsShown(StatsReplyOf(rows)).unpaid + StatsShown(StatsReplyOf(rows)).paid <= |rows|
  {
  }

  /** What the list endpoint sends. */
  datatype FinesJson = FinesJson(success: bool, message: string, fines: seq<FineJson>)

  /** A reply the page takes a new list from. */
  predicate ListLoaded(reply: HttpReply<FinesJson>)
  {
    reply.Answered? && IsOk(reply.status) && reply.body.Parsed? && reply.body.value.success
  }

  /** The alert after a failed list load, or nothing. */
  function LoadNotice(reply: HttpReply<FinesJson>): (n: Option<string>)
    ensures n.None? <==> ListLoaded(reply)
  {
    if ListLoaded(reply) then None
    else if reply.Answered? && IsOk(reply.status) && reply.body.Parsed? then Some(ErrorPrefix + reply.body.value.message)
    else Some(LoadFailedNotice)
  }

  /** The request `updateFineStatus` sends: the id in the path and the status in the body. */
  datatype StatusUpdate = StatusUpdate(fineId: int, status: string)

  /** The body `issueFine` posts. */
  datatype IssueRequest = IssueRequest(licensePlateNumber: string, violationType: string, amount: real,
                                       description: string)

  /** The form check: a plate left after trimming, a type, and a positive number as amount. */
  function IssueCheck(plateField: string, typeField: string, amount: Option<real>, descriptionField: string)
    : (r: Option<IssueRequest>)
    ensures r.Some? <==> NormalizePlate(plateField) != "" && typeField != "" && amount.Some? && amount.value > 0.0
    ensures r.Some? ==> r.value == IssueRequest(NormalizePlate(plateField), typeField, amount.value, JsTrim(descriptionField))
  {
    var plate := NormalizePlate(plateField);
    if plate == "" || typeField == "" || amount.None? || amount.value == 0.0 || amount.value <= 0.0 then None
    else Some(IssueRequest(plate, typeField, amount.value, JsTrim(descriptionField)))
  }

  /** A write the backend accepted: a JSON body with `success` (the status code is not looked at). */
  predicate WriteSucceeded(reply: HttpReply<ApiReply>)
  {
    reply.Answered? && reply.body.Parsed? && reply.body.value.success
  }

  /** The alert after a write the backend did not accept. */
  function WriteFailure(reply: HttpReply<ApiReply>, fallback: string): string
  {
    if reply.Answered? && reply.body.Parsed? then ErrorPrefix + reply.body.value.message else fallback
  }

  class ManageFinesPage {
    var allFines: seq<FineJson>
    var list: Option<ListView>
    var counters: Counters
    var plateField: string
    var typeField: string
    var amountField: string
    var descriptionField: string
    var searchField: string
    var issueEnabled: bool
    var notice: string
    var location: Option<string>
    const session: SessionStore
    /** `parseFloat`, with `None` for NaN. */
    const parseNumber: string -> Option<real>

    constructor (session: SessionStore, parseNumber: string -> Option<real>)
      ensures this.session == session && this.parseNumber == parseNumber
      ensures allFines == [] && list.None? && counters == Counters(0, 0, 0) && location.None?
      ensures plateField == "" && typeField == "" && amountField == "" && descriptionField == "" && searchField == ""
      ensures issueEnabled && notice == ""
    {
      this.session := session;
      this.parseNumber := parseNumber;
      allFines := [];
      list := None;
      counters := Counters(0, 0, 0);
      plateField, typeField, amountField, descriptionField, searchField := "", "", "", "", "";
      issueEnabled := true;
      notice := "";
      location := None;
    }

    /** `displayAllFines`: one card per fine, in order. */
    method DisplayAllFines(fines: seq<FineJson>)
      modifies this`list
      ensures list == Some(ListOf(fines))
    {
      if fines == [] {
        list := Some(NoFinesNotice);
        return;
      }
      var cards: seq<AdminCard> := [];
      for i := 0 to |fines|
        invariant |cards| == i
        invariant forall k :: 0 <= k < i ==> cards[k] == AdminCardOf(fines[k])
      {
        cards := cards + [AdminCardOf(fines[i])];
      }
      assert cards == ListOf(fines).cards;
      list := Some(CardList(cards));
    }

    /** `handleSearch`: shows the filtered list; the loaded fines stay as they are. */
    method HandleSearch()
      modifies this`list
      ensures list == Some(ListOf(SearchFilter(allFines, searchField)))
    {
      var term := SearchTerm(searchField);
      if term == "" {
        DisplayAllFines(allFines);
        return;
      }
      var shown := Filter(allFines, (f: FineJson) => Matches(f, term));
      DisplayAllFines(shown);
    }

    /** `exportFines`: the header, then one line per loaded fine in list order. */
    method ExportFines(dateText: int -> string, amountText: real -> string) returns (csv: string)
      ensures csv == Header + Lines(allFines, dateText, amountText)
    {
      var line := (f: FineJson) => Line(f, dateText, amountText);
      csv := Header;
      for i := 0 to |allFines|
        invariant csv == Header + JoinLines(allFines[..i], line)
      {
        JoinStep(allFines, i, line, Header);
        csv := csv + line(allFines[i]);
      }
      assert allFines[..|allFines|] == allFines;
    }

    /** `loadFineStats`. */
    method LoadFineStats(reply: HttpReply<StatsJson>)
      modifies this`counters
      ensures counters == StatsShown(reply)
    {
      if StatsUsable(reply) {
        var s := reply.body.value.stats.value;
        counters := Counters(OrZero(s.totalFines), OrZero(s.unpaidFines), OrZero(s.paidFines));
      } else {
        counters := Counters(0, 0, 0);
      }
    }

    /** `loadAllFines`: a loaded list replaces the fines and is shown whole; a failure only
        alerts. */
    method LoadAllFines(reply: HttpReply<FinesJson>)
      modifies this`allFines, this`list, this`notice
      ensures ListLoaded(reply) ==>
                allFines == reply.body.value.fines && list == Some(ListOf(allFines)) && notice == old(notice)
      ensures !ListLoaded(reply) ==>
                allFines == old(allFines) && list == old(list) && notice == LoadNotice(reply).value
    {
      var failure := LoadNotice(reply);
      if failure.None? {
        allFines := reply.body.value.fines;
        DisplayAllFines(allFines);
      } else {
        notice := failure.value;
      }
    }

    /** `issueFine`: an invalid form only alerts; a valid one is posted, and after the backend
        accepts it the form and the search are cleared and both statistics and list reloaded. */
    method IssueFine(reply: HttpReply<ApiReply>, statsReply: HttpReply<StatsJson>, finesReply: HttpReply<FinesJson>)
      returns (sent: Option<IssueRequest>)
      modifies this`allFines, this`list, this`notice, this`counters, this`issueEnabled
      modifies this`plateField, this`typeField, this`amountField, this`descriptionField, this`searchField
      ensures sent == IssueCheck(old(plateField), old(typeField), parseNumber(old(amountField)), old(descriptionField))
      ensures sent.None? ==>
                notice == MissingFieldsNotice && allFines == old(allFines) && list == old(list) &&
                counters == old(counters) && issueEnabled == old(issueEnabled) &&
                plateField == old(plateField) && typeField == old(typeField) && amountField == old(amountField) &&
                descriptionField == old(descriptionField) && searchField == old(searchField)
      ensures sent.Some? ==> issueEnabled
      ensures sent.Some? && WriteSucceeded(reply) ==>
                && plateField == "" && typeField == "" && amountField == "" && descriptionField == ""
                && searchField == ""
                && counters == StatsShown(statsReply)
                && (ListLoaded(finesReply) ==>
                      allFines == finesReply.body.value.fines && list == Some(ListOf(allFines)) && notice == IssuedNotice)
                && (!ListLoaded(finesReply) ==>
                      allFines == old(allFines) && list == old(list) && notice == LoadNotice(finesReply).value)
      ensures sent.Some? && !WriteSucceeded(reply) ==>
                notice == WriteFailure(reply, IssueFailedNotice) && allFines == old(allFines) && list == old(list) &&
                counters == old(counters) &&
                plateField == old(plateField) && typeField == old(typeField) && amountField == old(amountField) &&
                descriptionField == old(descriptionField) && searchField == old(searchField)
    {
      sent := IssueCheck(plateField, typeField, parseNumber(amountField), descriptionField);
      if sent.None? {
        notice := MissingFieldsNotice;
        return;
      }
      issueEnabled := false;
      if WriteSucceeded(reply) {
        notice := IssuedNotice;
        plateField, typeField, amountField, descriptionField := "", "", "", "";
        searchField := "";
        LoadFineStats(statsReply);
        LoadAllFines(finesReply);
      } else {
        notice := WriteFailure(reply, IssueFailedNotice);
      }
      issueEnabled := true;
    }

    /** `updateFineStatus`: nothing is sent unless the user confirms; statistics and list are
        reloaded only after the backend accepts the change. */
    method UpdateFineStatus(fineId: int, status: string, confirmed: bool, reply: HttpReply<ApiReply>,
                            statsReply: HttpReply<StatsJson>, finesReply: HttpReply<FinesJson>)
      returns (sent: Option<StatusUpdate>, refreshed: bool)
      modifies this`allFines, this`list, this`notice, this`counters
      ensures sent.Some? <==> confirmed
      ensures sent.Some? ==> sent.value == StatusUpdate(fineId, status)
      ensures refreshed <==> confirmed && WriteSucceeded(reply)
      ensures !confirmed ==>
                allFines == old(allFines) && list == old(list) && notice == old(notice) && counters == old(counters)
      ensures confirmed && !refreshed ==>
                notice == WriteFailure(reply, UpdateFailedNotice) &&
                allFines == old(allFines) && list == old(list) && counters == old(counters)
      ensures refreshed ==>
                && counters == StatsShown(statsReply)
                && (ListLoaded(finesReply) ==>
                      allFines == finesReply.body.value.fines && list == Some(ListOf(allFines)) && notice == UpdatedNotice)
                && (!ListLoaded(finesReply) ==>
                      allFines == old(allFines) && list == old(list) && notice == LoadNotice(finesReply).value)
    {
      if !confirmed {
        return None, false;
      }
      sent := Some(StatusUpdate(fineId, status));
      if WriteSucceeded(reply) {
        notice := UpdatedNotice;
        LoadFineStats(statsReply);
        LoadAllFines(finesReply);
        refreshed := true;
      } else {
        notice := WriteFailure(reply, UpdateFailedNotice);
        refreshed := false;
      }
    }

    /** Page load: without a token the user is sent to the login page, without the authority
        role to the index page; otherwise the statistics and list are loaded, and a plate left by
        the detection page fills the plate field and is removed from storage. */
    method Init(statsReply: HttpReply<StatsJson>, finesReply: HttpReply<FinesJson>)
      modifies this`allFines, this`list, this`notice, this`counters, this`plateField, this`location, session
      ensures !Truthy(old(session.GetItem(AuthTokenKey))) ==>
                location == Some("login.html") && session.items == old(session.items) &&
                allFines == old(allFines) && list == old(list) && notice == old(notice) &&
                counters == old(counters) && plateField == old(plateField)
      ensures Truthy(old(session.GetItem(AuthTokenKey))) && old(session.GetItem(UserRoleKey)) != Some("AUTHORITY") ==>
                location == Some("index.html") && session.items == old(session.items) &&
                allFines == old(allFines) && list == old(list) && notice == old(notice) &&
                counters == old(counters) && plateField == old(plateField)
      ensures Truthy(old(session.GetItem(AuthTokenKey))) && old(session.GetItem(UserRoleKey)) == Some("AUTHORITY") ==>
                && location == old(location)
                && counters == StatsShown(statsReply)
                && (ListLoaded(finesReply) ==>
                      allFines == finesReply.body.value.fines && list == Some(ListOf(allFines)) && notice == old(notice))
                && (!ListLoaded(finesReply) ==>
                      allFines == old(allFines) && list == old(list) && notice == LoadNotice(finesReply).value)
                && (Truthy(old(session.GetItem(DetectedPlateKey))) ==>
                      plateField == old(session.items[DetectedPlateKey]) &&
                      session.items == old(session.items) - {DetectedPlateKey})
                && (!Truthy(old(session.GetItem(DetectedPlateKey))) ==>
                      plateField == old(plateField) && session.items == old(session.items))
    {
      if !Truthy(session.GetItem(AuthTokenKey)) {
        location := Some("login.html");
        return;
      }
      if session.GetItem(UserRoleKey) != Some("AUTHORITY") {
        location := Some("index.html");
        return;
      }
      LoadFineStats(statsReply);
      LoadAllFines(finesReply);
      var detected := session.GetItem(DetectedPlateKey);
      if Truthy(detected) {
        plateField := detected.value;
        session.RemoveItem(DetectedPlateKey);
      }
    }
  }
}

=== FILE: plate_recognition.dfy ===
/** The recognition service: validation of OCR text as a licence plate, the fixed-order
    recognition cascade and the `/detect` endpoint. The OCR text each cascade step reads is an
    input; image decoding, preprocessing and timing are not part of this model. */
module PlateRecognition {

  import opened Common
  import opened Strings
  import opened Seqs

  const MinPlateLength: nat := 4
  const MaxPlateLength: nat := 10
  const MaxConfidence: real := 0.95

  /** The characters cleaning keeps: `[A-Z0-9]`. */
  predicate IsPlateChar(c: char)
  {
    IsAsciiUpper(c) || IsDigit(c)
  }

  /** `re.sub(r'[^A-Z0-9]', '', text.upper())`. */
  function Clean(text: string): (r: string)
    ensures |r| <= |text|
    ensures forall i :: 0 <= i < |r| ==> IsPlateChar(r[i])
    ensures r == Filter(ToUpper(text), IsPlateChar)
    decreases |text|
  {
    if text == [] then []
    else
      var c := UpperChar(text[0]);
      assert ToUpper(text)[0] == c && ToUpper(text)[1..] == ToUpper(text[1..]);
      (if IsPlateChar(c) then [c] else []) + Clean(text[1..])
  }

  /** Text made of plate characters only is left as it is by cleaning. */
  lemma {:induction false} CleanFixesPlateText(text: string)
    requires forall i :: 0 <= i < |text| ==> IsPlateChar(text[i])
    ensures Clean(text) == text
    decreases |text|
  {
    if text != [] {
      assert UpperChar(text[0]) == text[0];
      CleanFixesPlateText(text[1..]);
      assert text == [text[0]] + text[1..];
    }
  }

  /** Cleaning is idempotent. */
  lemma CleanIdempotent(text: string)
    ensures Clean(Clean(text)) == Clean(text)
  {
    CleanFixesPlateText(Clean(text));
  }

  /** Every lower-case ASCII letter survives cleaning as its capital. */
  lemma {:induction false} CleanUppercases(text: string, i: nat)
    requires i < |text| && IsAsciiLower(text[i])
    ensures UpperChar(text[i]) in Clean(text)
    decreases |text|
  {
    if i > 0 {
      CleanUppercases(text[1..], i - 1);
      assert text[1..][i - 1] == text[i];
    }
  }

  predicate HasLetter(s: string)
  {
    exists i :: 0 <= i < |s| && IsAsciiUpper(s[i])
  }

  predicate HasDigit(s: string)
  {
    exists i :: 0 <= i < |s| && IsDigit(s[i])
  }

  /** What validation accepts: 4 to 10 characters of `[A-Z0-9]`, with a letter and a digit. */
  predicate PlateLike(s: string)
  {
    && MinPlateLength <= |s| <= MaxPlateLength
    && (forall i :: 0 <= i < |s| ==> IsPlateChar(s[i]))
    && HasLetter(s)
    && HasDigit(s)
  }

  function Min(a: real, b: real): real
  {
    if a <= b then a else b
  }

  /** The score of an accepted plate of `n` characters. */
  function PlateConfidence(n: nat): (c: real)
    requires MinPlateLength <= n
    ensures c == if n == MinPlateLength then 0.9 else MaxConfidence
  {
    var baseConfidence := 0.5;
    var lengthBonus := Min(n as real * 0.05, 0.3);
    var mixedBonus := 0.2;
    Min(baseConfidence + lengthBonus + mixedBonus, MaxConfidence)
  }

  /** `(None, 0.0)` or `(cleaned, confidence)`. */
  datatype Validation = Rejected | Accepted(plate: string, confidence: real)

  /** The confidence half of the answer: 0.0 for a rejection. */
  function ConfidenceOf(v: Validation): real
  {
    if v.Accepted? then v.confidence else 0.0
  }

  /** `validate_license_plate`. */
  function ValidateLicensePlate(text: string): (r: Validation)
    ensures text == [] ==> r == Rejected
    ensures r.Accepted? <==> PlateLike(Clean(text))
    ensures r.Accepted? ==> r.plate == Clean(text)
    ensures r.Accepted? ==> r.confidence == if |r.plate| == MinPlateLength then 0.9 else MaxConfidence
    ensures ConfidenceOf(r) == 0.0 <==> r.Rejected?
  {
    if text == [] then Rejected
    else
      var cleaned := Clean(text);
      if |cleaned| < MinPlateLength || |cleaned| > MaxPlateLength then Rejected
      else
        var hasLetters := exists i :: 0 <= i < |cleaned| && IsAsciiUpper(cleaned[i]);
        var hasDigits := exists i :: 0 <= i < |cleaned| && IsDigit(cleaned[i]);
        if !(hasLetters && hasDigits) then Rejected
        else Accepted(cleaned, PlateConfidence(|cleaned|))
  }

  /** Validating an accepted plate again accepts it unchanged, with the same confidence. */
  lemma ValidationIdempotent(text: string)
    requires ValidateLicensePlate(text).Accepted?
    ensures ValidateLicensePlate(ValidateLicensePlate(text).plate) == ValidateLicensePlate(text)
  {
    CleanIdempotent(text);
  }

  /** The OCR text each step of the cascade reads: the contour region's text when a region was
      found, the full image's text, and the text for each alternative page-segmentation mode. */
  datatype Readings = Readings(contourText: Option<string>, fullText: string, altText: nat -> string)

  /** A reply of `detect_license_plate_real`, without the processing time. */
  datatype PlateResult = PlateResult(licensePlate: string, confidence: real, success: bool,
                                     methodName: string, error: Option<string>)

  const AltModes: seq<nat> := [7, 10, 11, 13]
  const FullImageFactor: real := 0.8
  const AltModeFactor: real := 0.7

  const NotDetected: PlateResult :=
    PlateResult("NOT_DETECTED", 0.0, false, "real_detection_failed",
                Some("No license plate could be detected in the image"))

  function Found(v: Validation, factor: real, methodName: string): PlateResult
    requires v.Accepted?
  {
    PlateResult(v.plate, v.confidence * factor, true, methodName, None)
  }

  function AltMethod(mode: nat): string
  {
    "alt_psm_" + DecimalString(mode)
  }

  /** Some step of the cascade has text that validates. */
  predicate SomeStepValidates(readings: Readings)
  {
    || (readings.contourText.Some? && ValidateLicensePlate(readings.contourText.value).Accepted?)
    || ValidateLicensePlate(readings.fullText).Accepted?
    || (exists k :: 0 <= k < |AltModes| && ValidateLicensePlate(readings.altText(AltModes[k])).Accepted?)
  }

  /** The alternative modes from position `k` on, first valid one wins. */
  function AltCascade(readings: Readings, k: nat): (r: PlateResult)
    requires k <= |AltModes|
    ensures r.success <==> exists j :: k <= j < |AltModes| && ValidateLicensePlate(readings.altText(AltModes[j])).Accepted?
    ensures r.success ==> PlateLike(r.licensePlate) && 0.0 < r.confidence <= MaxConfidence * AltModeFactor
    ensures !r.success ==> r == NotDetected
    decreases |AltModes| - k
  {
    if k == |AltModes| then NotDetected
    else
      var v := ValidateLicensePlate(readings.altText(AltModes[k]));
      if v.Accepted? then Found(v, AltModeFactor, AltMethod(AltModes[k]))
      else AltCascade(readings, k + 1)
  }

  /** The cascade: contour region, full image (score × 0.8), then modes 7, 10, 11, 13 (× 0.7). */
  function Cascade(readings: Readings): (r: PlateResult)
    ensures r.success <==> SomeStepValidates(readings)
    ensures r.success ==> PlateLike(r.licensePlate) && 0.0 < r.confidence <= MaxConfidence
    ensures !r.success ==> r == NotDetected
    ensures readings.contourText.Some? && ValidateLicensePlate(readings.contourText.value).Accepted? ==>
              r == Found(ValidateLicensePlate(readings.contourText.value), 1.0, "contour_detection")
    ensures && !(readings.contourText.Some? && ValidateLicensePlate(readings.contourText.value).Accepted?)
            && ValidateLicensePlate(readings.fullText).Accepted?
            ==> r == Found(ValidateLicensePlate(readings.fullText), FullImageFactor, "full_image_ocr")
  {
    var fromContour := if readings.contourText.Some? then ValidateLicensePlate(readings.contourText.value) else Rejected;
    if fromContour.Accepted? then Found(fromContour, 1.0, "contour_detection")
    else
      var fromFull := ValidateLicensePlate(readings.fullText);
      if fromFull.Accepted? then Found(fromFull, FullImageFactor, "full_image_ocr")
      else AltCascade(readings, 0)
  }

  /** The full image is read only when the contour step gave nothing valid, and a later mode
      only when every earlier one failed. */
  lemma {:induction false} CascadeOrder(readings: Readings, k: nat)
    requires k < |AltModes|
    requires !(readings.contourText.Some? && ValidateLicensePlate(readings.contourText.value).Accepted?)
    requires !ValidateLicensePlate(readings.fullText).Accepted?
    requires forall j :: 0 <= j < k ==> !ValidateLicensePlate(readings.altText(AltModes[j])).Accepted?
    requires ValidateLicensePlate(readings.altText(AltModes[k])).Accepted?
    ensures Cascade(readings) == Found(ValidateLicensePlate(readings.altText(AltModes[k])), AltModeFactor, AltMethod(AltModes[k]))
  {
    AltSkipsFailures(readings, 0, k);
  }

  lemma {:induction false} AltSkipsFailures(readings: Readings, from: nat, k: nat)
    requires from <= k < |AltModes|
    requires forall j :: from <= j < k ==> !ValidateLicensePlate(readings.altText(AltModes[j])).Accepted?
    ensures AltCascade(readings, from) == AltCascade(readings, k)
    decreases k - from
  {
    if from < k {
      AltSkipsFailures(readings, from + 1, k);
    }
  }

  /** The error reply for an image that cannot be decoded. */
  function DecodeFailure(message: string): PlateResult
  {
    PlateResult("DETECTION_ERROR", 0.0, false, "processing_error", Some("Detection failed: " + message))
  }

  /** `detect_license_plate_real`, as the service runs it: step by step with an early return.
      `image` is the decoded image's readings, or the decoder's error message. */
  method DetectLicensePlateReal(image: Result<Readings>) returns (r: PlateResult)
    ensures image.Err? ==> r == DecodeFailure(image.message)
    ensures image.Ok? ==> r == Cascade(image.value)
  {
    if image.Err? {
      return DecodeFailure(image.message);
    }
    var readings := image.value;
    if readings.contourText.Some? {
      var v := ValidateLicensePlate(readings.contourText.value);
      if v.Accepted? {
        return Found(v, 1.0, "contour_detection");
      }
    }
    var full := ValidateLicensePlate(readings.fullText);
    if full.Accepted? {
      return Found(full, FullImageFactor, "full_image_ocr");
    }
    var k := 0;
    while k < |AltModes|
      invariant 0 <= k <= |AltModes|
      invariant Cascade(readings) == AltCascade(readings, k)
    {
      var v := ValidateLicensePlate(readings.altText(AltModes[k]));
      if v.Accepted? {
        return Found(v, AltModeFactor, AltMethod(AltModes[k]));
      }
      k := k + 1;
    }
    r := NotDetected;
  }

  /** The JSON body of a `/detect` request: unreadable, or an object whose `imageData` entry is
      absent (or null) or a string. */
  datatype DetectRequest = Unreadable(error: string) | JsonObject(imageData: Option<string>)

  datatype DetectReply =
    | Recognition(result: PlateResult)
    | MissingImage
    | ApiError(error: string)

  function StatusCode(reply: DetectReply): int
  {
    match reply
    case Recognition(_) => 200
    case MissingImage => 400
    case ApiError(_) => 500
  }

  /** `/detect`: no image data (absent or empty) is refused with 400 before any recognition;
      otherwise the image is decoded by `decode` and recognised. */
  function DetectPlate(request: DetectRequest, decode: string -> Result<Readings>): (r: DetectReply)
    ensures request.Unreadable? ==> r == ApiError(request.error) && StatusCode(r) == 500
    ensures request.JsonObject? && (request.imageData.None? || request.imageData == Some("")) ==>
              r == MissingImage && StatusCode(r) == 400
    ensures r.Recognition? ==>
              request.JsonObject? && request.imageData.Some? && request.imageData.value != "" &&
              (decode(request.imageData.value).Ok? ==> r.result == Cascade(decode(request.imageData.value).value))
    ensures request.JsonObject? && Truthy(request.imageData) && decode(request.imageData.value).Err? ==>
              r == Recognition(DecodeFailure(decode(request.imageData.value).message)) && StatusCode(r) == 200
    ensures request.JsonObject? && Truthy(request.imageData) && decode(request.imageData.value).Ok? ==>
              r == Recognition(Cascade(decode(request.imageData.value).value)) && StatusCode(r) == 200
  {
    match request
    case Unreadable(e) => ApiError(e)
    case JsonObject(imageData) =>
      if !Truthy(imageData) then MissingImage
      else
        var image := decode(imageData.value);
        Recognition(if image.Err? then DecodeFailure(image.message) else Cascade(image.value))
  }
}

=== FILE: seqs.dfy ===
/** Filtering and counting over sequences: the meaning of Java stream `filter`/`count`,
    JavaScript `Array.prototype.filter` and the WHERE clause of a derived query. */
module Seqs {

  /** The elements of `s` that satisfy `p`, in their original order. */
  function Filter<T>(s: seq<T>, p: T -> bool): (r: seq<T>)
    ensures |r| <= |s|
    ensures forall x :: x in r ==> x in s && p(x)
    decreases |s|
  {
    if s == [] then []
    else if p(s[0]) then [s[0]] + Filter(s[1..], p)
    else Filter(s[1..], p)
  }

  /** The number of positions of `s` whose element satisfies `p`. */
  function Count<T>(s: seq<T>, p: T -> bool): nat
    decreases |s|
  {
    if s == [] then 0 else (if p(s[0]) then 1 else 0) + Count(s[1..], p)
  }

  /** `r` can be obtained from `s` by deleting elements, without reordering. */
  predicate IsSubsequence<T(==)>(r: seq<T>, s: seq<T>)
    decreases |s|
  {
    if r == [] then true
    else if s == [] then false
    else (r[0] == s[0] && IsSubsequence(r[1..], s[1..])) || IsSubsequence(r, s[1..])
  }

  /** Filtering keeps the order of the kept elements, keeps every element that satisfies `p`
      and keeps exactly as many elements as there are positions satisfying `p`. */
  lemma {:induction false} FilterIsOrderedSelection<T>(s: seq<T>, p: T -> bool)
    ensures IsSubsequence(Filter(s, p), s)
    ensures |Filter(s, p)| == Count(s, p)
    ensures forall x :: x in s && p(x) ==> x in Filter(s, p)
    decreases |s|
  {
    if s != [] {
      FilterIsOrderedSelection(s[1..], p);
      var rest := Filter(s[1..], p);
      if p(s[0]) {
        assert Filter(s, p) == [s[0]] + rest;
        assert ([s[0]] + rest)[1..] == rest;
      } else {
        assert Filter(s, p) == rest;
        if rest != [] {
          assert IsSubsequence(rest, s[1..]);
        }
      }
      forall x | x in s && p(x) ensures x in Filter(s, p) {
        if x != s[0] {
          assert x in s[1..];
        }
      }
    }
  }

  /** A predicate that holds of every element keeps the whole sequence. */
  lemma {:induction false} FilterAll<T>(s: seq<T>, p: T -> bool)
    requires forall x :: x in s ==> p(x)
    ensures Filter(s, p) == s
    decreases |s|
  {
    if s != [] {
      assert s[0] in s;
      forall x | x in s[1..] ensures p(x) {
        assert x in s;
      }
      FilterAll(s[1..], p);
      assert [s[0]] + s[1..] == s;
    }
  }

  /** Two predicates that never hold together count at most one per position. */
  lemma {:induction false} CountDisjoint<T>(s: seq<T>, p: T -> bool, q: T -> bool)
    requires forall x :: !(p(x) && q(x))
    ensures Count(s, p) + Count(s, q) <= |s|
    decreases |s|
  {
    if s != [] {
      CountDisjoint(s[1..], p, q);
    }
  }

  /** Counting over a concatenation adds up. */
  lemma {:induction false} CountAppend<T>(s: seq<T>, t: seq<T>, p: T -> bool)
    ensures Count(s + t, p) == Count(s, p) + Count(t, p)
    decreases |s|
  {
    if s == [] {
      assert s + t == t;
    } else {
      assert (s + t)[1..] == s[1..] + t;
      CountAppend(s[1..], t, p);
    }
  }
}

=== FILE: session.dfy ===
/** The browser's `localStorage` as the pages use it: a map from keys to strings. */
module Session {

  import opened Common

  const AuthTokenKey: string := "authToken"
  const UsernameKey: string := "username"
  const UserRoleKey: string := "userRole"
  const DetectedPlateKey: string := "detectedPlate"

  /** The three keys a login writes and a logout removes. */
  const LoginKeys: set<string> := {AuthTokenKey, UsernameKey, UserRoleKey}

  /** The guard of the pages that need a login: without a stored, non-empty token the page
      goes to the login page. */
  function LoginGuard(items: map<string, string>): (target: Option<string>)
    ensures target.None? <==> AuthTokenKey in items && items[AuthTokenKey] != ""
    ensures target.Some? ==> target.value == "login.html"
  {
    if AuthTokenKey in items && items[AuthTokenKey] != "" then None else Some("login.html")
  }

  class SessionStore {
    var items: map<string, string>

    constructor (items: map<string, string>)
      ensures this.items == items
    {
      this.items := items;
    }

    /** `getItem`: the stored string, or null. */
    function GetItem(key: string): (r: Option<string>)
      reads this
      ensures r.Some? <==> key in items
      ensures r.Some? ==> r.value == items[key]
    {
      if key in items then Some(items[key]) else None
    }

    /** `setItem`. */
    method SetItem(key: string, value: string)
      modifies this
      ensures items == old(items)[key := value]
    {
      items := items[key := value];
    }

    /** `removeItem`: absent keys are ignored. */
    method RemoveItem(key: string)
      modifies this
      ensures items == old(items) - {key}
    {
      items := items - {key};
    }

    /** The three login keys removed, as `logout` and an expired session do. */
    method ClearLogin()
      modifies this
      ensures items == old(items) - LoginKeys
    {
      RemoveItem(AuthTokenKey);
      RemoveItem(UsernameKey);
      RemoveItem(UserRoleKey);
    }
  }
}

=== FILE: strings.dfy ===
/** Character and string operations of the JavaScript, Java and Python standard libraries,
    restricted to what the model needs. Case mapping is ASCII only. */
module Strings {

  import opened Common

  predicate IsAsciiUpper(c: char) { 'A' <= c <= 'Z' }

  predicate IsAsciiLower(c: char) { 'a' <= c <= 'z' }

  predicate IsDigit(c: char) { '0' <= c <= '9' }

  function UpperChar(c: char): char
  {
    if IsAsciiLower(c) then (c as int - 32) as char else c
  }

  function LowerChar(c: char): char
  {
    if IsAsciiUpper(c) then (c as int + 32) as char else c
  }

  /** `toUpperCase()` / `upper()` / `UPPER()` on ASCII letters. */
  function ToUpper(s: string): (r: string)
    ensures |r| == |s|
  {
    seq(|s|, i requires 0 <= i < |s| => UpperChar(s[i]))
  }

  /** `toLowerCase()` / `lower()` / `LOWER()` on ASCII letters. */
  function ToLower(s: string): (r: string)
    ensures |r| == |s|
  {
    seq(|s|, i requires 0 <= i < |s| => LowerChar(s[i]))
  }

  /** JavaScript's `WhiteSpace` and `LineTerminator` code points, which `String.prototype.trim` removes. */
  predicate IsJsSpace(c: char)
  {
    var n := c as int;
    n == 0x09 || n == 0x0A || n == 0x0B || n == 0x0C || n == 0x0D || n == 0x20 ||
    n == 0xA0 || n == 0x1680 || (0x2000 <= n <= 0x200A) || n == 0x2028 || n == 0x2029 ||
    n == 0x202F || n == 0x205F || n == 0x3000 || n == 0xFEFF
  }

  function TrimStart(s: string): string
    decreases |s|
  {
    if s != [] && IsJsSpace(s[0]) then TrimStart(s[1..]) else s
  }

  function TrimEnd(s: string): string
    decreases |s|
  {
    if s != [] && IsJsSpace(s[|s| - 1]) then TrimEnd(s[..|s| - 1]) else s
  }

  /** JavaScript `String.prototype.trim`. */
  function JsTrim(s: string): string
  {
    TrimEnd(TrimStart(s))
  }

  /** The result of `trim` is a contiguous piece of the input that neither starts nor ends with
      white space, and only white space was cut off on either side. */
  lemma {:induction false} JsTrimSpec(s: string)
    ensures exists i :: 0 <= i && TrimmedAt(s, JsTrim(s), i)
    ensures JsTrim(s) != [] ==> !IsJsSpace(JsTrim(s)[0]) && !IsJsSpace(JsTrim(s)[|JsTrim(s)| - 1])
  {
    var i := TrimStartSpec(s);
    var a := TrimStart(s);
    TrimEndSpec(a);
    var t := JsTrim(s);
    assert s[i..] == a;
    assert s[i..i + |t|] == a[..|t|] == t;
    forall k | i + |t| <= k < |s| ensures IsJsSpace(s[k]) {
      assert s[k] == a[k - i];
    }
    if t != [] {
      assert t[0] == a[0];
    }
    assert TrimmedAt(s, t, i);
  }

  /** `t` is `s` with white space cut off `i` characters on the left and the rest on the right. */
  predicate TrimmedAt(s: string, t: string, i: nat)
  {
    && OccursAt(s, t, i)
    && (forall k :: 0 <= k < i ==> IsJsSpace(s[k]))
    && (forall k :: i + |t| <= k < |s| ==> IsJsSpace(s[k]))
  }

  /** `t` occurs in `s` starting at index `i`. */
  predicate OccursAt(s: string, t: string, i: nat)
  {
    i + |t| <= |s| && s[i..i + |t|] == t
  }

  lemma {:induction false} TrimStartSpec(s: string) returns (i: nat)
    ensures i <= |s| && TrimStart(s) == s[i..]
    ensures forall k :: 0 <= k < i ==> IsJsSpace(s[k])
    ensures TrimStart(s) != [] ==> !IsJsSpace(TrimStart(s)[0])
    decreases |s|
  {
    if s != [] && IsJsSpace(s[0]) {
      var j := TrimStartSpec(s[1..]);
      i := j + 1;
      assert s[1..][j..] == s[i..];
    } else {
      i := 0;
    }
  }

  lemma {:induction false} TrimEndSpec(s: string)
    ensures |TrimEnd(s)| <= |s| && TrimEnd(s) == s[..|TrimEnd(s)|]
    ensures forall k :: |TrimEnd(s)| <= k < |s| ==> IsJsSpace(s[k])
    ensures TrimEnd(s) != [] ==> !IsJsSpace(TrimEnd(s)[|TrimEnd(s)| - 1])
    decreases |s|
  {
    if s != [] && IsJsSpace(s[|s| - 1]) {
      var p := s[..|s| - 1];
      TrimEndSpec(p);
      assert p[..|TrimEnd(p)|] == s[..|TrimEnd(p)|];
    }
  }

  /** Java `trim().isEmpty()`: every character is at most U+0020. */
  predicate JavaBlank(s: string)
  {
    forall i :: 0 <= i < |s| ==> s[i] <= ' '
  }

  /** JavaScript `includes`, Java `contains`, Python `in`: `t` occurs in `s` at some position. */
  predicate Contains(s: string, t: string)
    decreases |s|
  {
    t <= s || (s != [] && Contains(s[1..], t))
  }

  /** `Contains` means what it says: an occurrence at some index. */
  lemma {:induction false} ContainsSpec(s: string, t: string)
    ensures Contains(s, t) <==> exists i :: 0 <= i && OccursAt(s, t, i)
    decreases |s|
  {
    if t <= s {
      assert OccursAt(s, t, 0);
    } else if s == [] {
    } else {
      ContainsSpec(s[1..], t);
      if exists i :: 0 <= i && OccursAt(s, t, i) {
        var i :| 0 <= i && OccursAt(s, t, i);
        assert i != 0;
        assert s[1..][i - 1..i - 1 + |t|] == s[i..i + |t|];
        assert OccursAt(s[1..], t, i - 1);
      }
      if Contains(s[1..], t) {
        var j :| 0 <= j && OccursAt(s[1..], t, j);
        assert s[1..][j..j + |t|] == s[j + 1..j + 1 + |t|];
        assert OccursAt(s, t, j + 1);
      }
    }
  }

  /** The empty string occurs in every string. */
  lemma EmptyContained(s: string)
    ensures Contains(s, "")
  {
  }

  /** Java `endsWith`. */
  predicate EndsWith(s: string, suffix: string)
  {
    |suffix| <= |s| && s[|s| - |suffix|..] == suffix
  }

  /** Java `startsWith` / JavaScript `startsWith`. */
  predicate StartsWith(s: string, prefix: string)
  {
    prefix <= s
  }

  /** The position of the first occurrence of `c` in `s`, if any. */
  function IndexOfChar(s: string, c: char): (r: Option<nat>)
    ensures r.Some? ==> r.value < |s| && s[r.value] == c && c !in s[..r.value]
    ensures r.None? ==> c !in s
    decreases |s|
  {
    if s == [] then None
    else if s[0] == c then Some(0)
    else
      match IndexOfChar(s[1..], c)
      case None => None
      case Some(i) => assert s[..i + 1] == [s[0]] + s[1..][..i]; Some(i + 1)
  }
}

=== FILE: users.dfy ===
/** The `User` entity and the two lookups of its repository (`findByUsername`, `findByEmail`). */
module UserModel {

  import opened Common

  datatype UserRole = CITIZEN | AUTHORITY

  /** `UserRole.name()`. */
  function RoleName(r: UserRole): string
  {
    match r
    case CITIZEN => "CITIZEN"
    case AUTHORITY => "AUTHORITY"
  }

  /** A stored user: the password field holds the encoded password. */
  datatype User = User(id: nat, username: string, email: string, password: string, fullName: string, role: UserRole)

  /** The `users` table: usernames and emails are unique columns. */
  predicate UniqueAccounts(users: seq<User>)
  {
    forall i, j :: 0 <= i < j < |users| ==> users[i].username != users[j].username && users[i].email != users[j].email
  }

  /** In a table with unique columns, a username or an email picks out at most one user. */
  lemma KeysIdentifyUser(users: seq<User>)
    ensures UniqueAccounts(users) ==>
              forall u, v :: u in users && v in users && u.username == v.username ==> u == v
    ensures UniqueAccounts(users) ==>
              forall u, v :: u in users && v in users && u.email == v.email ==> u == v
  {
    if UniqueAccounts(users) {
      forall u, v | u in users && v in users && (u.username == v.username || u.email == v.email)
        ensures u == v
      {
        var i :| 0 <= i < |users| && users[i] == u;
        var j :| 0 <= j < |users| && users[j] == v;
        assert !(i < j) && !(j < i);
      }
    }
  }

  /** `userRepository.findByUsername`. */
  function FindByUsername(users: seq<User>, name: string): (r: Option<User>)
    ensures r.Some? ==> r.value in users && r.value.username == name
    ensures r.None? <==> forall u :: u in users ==> u.username != name
    decreases |users|
  {
    if users == [] then None
    else if users[0].username == name then Some(users[0])
    else FindByUsername(users[1..], name)
  }

  /** `userRepository.findByEmail`. */
  function FindByEmail(users: seq<User>, email: string): (r: Option<User>)
    ensures r.Some? ==> r.value in users && r.value.email == email
    ensures r.None? <==> forall u :: u in users ==> u.email != email
    decreases |users|
  {
    if users == [] then None
    else if users[0].email == email then Some(users[0])
    else FindByEmail(users[1..], email)
  }
}
